=== FILE: README.md ===
# Batch watermark remover — a Dafny model

This project models the core of a single-page browser app. The user supplies a
Gemini API key and queues images. The app asks the `gemini-2.5-flash-image`
model to remove text overlays and logos from each image, one image at a time.
The model covers these parts:

- **The service call.** `removeWatermark` chooses an aspect ratio from the image's
  dimensions (`getBestConfig`) and builds the request. It then reads the reply:
  the first inline image wins; otherwise the collected text becomes a "Model
  Refusal" error. Every failure is re-thrown with a non-empty message.
- **The app state.** Covers adding files, removing an item, selection,
  `updateImageStatus` as a partial-record merge, and `processImage` with its
  status machine and error classification.
- **The batch run.** `handleProcessAll` processes the PENDING/ERROR snapshot in
  order and selects each item while it is processed.
- **The view decisions.** Covers the sidebar's pending count, the Process-all
  guard, status labels and icons, and the result pane's buttons, download link
  and preview.

Everything that talks to the outside world is a parameter:

- **Image probe.** `Option<Dimensions>`, where `None` means the image did not load.
- **SDK call.** A `CallOutcome`, which is either a reply or a thrown message.
- **Batch replies.** The batch takes one such `Oracle` per queue position.
- **Random id generator.** A function `idFor` from file position to id.

The modules follow the source files:

| module | file | source |
|---|---|---|
| `Wrappers` | Wrappers.dfy | `Option` / `Result` |
| `Strings` | Strings.dfy | JS truthiness, `includes`, `startsWith`, `trim` |
| `AspectRatio` | AspectRatio.dfy | `getBestConfig` |
| `GeminiService` | GeminiService.dfy | `removeWatermark` |
| `Types` | Types.dfy | `types.ts`, plus the `{...img, ...updates}` merge |
| `ErrorClassifier` | ErrorClassifier.dfy | the error-message mapping in `processImage` |
| `App` | App.dfy | state operations of `App.tsx` |
| `Batch` | Batch.dfy | `handleProcessAll` |
| `Sidebar` | Sidebar.dfy | `components/Sidebar.tsx` |
| `ResultDisplay` | ResultDisplay.dfy | `components/ResultDisplay.tsx` |

Where the source has a subtlety, the model follows the code:

- **Unmeasurable image.** With height 0, JavaScript's `width / height` is
  `Infinity` or `NaN`, and neither compares below `Number.MAX_VALUE`. So
  `getBestConfig` answers "1:1". `BestConfig` has this branch explicitly.
  `MaxValue` is the exact value of `Number.MAX_VALUE`, (2 − 2⁻⁵²)·2¹⁰²³.
- **Empty candidates.** An empty `candidates` array is truthy, so
  `response.candidates[0].content` throws a TypeError inside the `try`, and
  its message is re-thrown. `EmptyCandidatesMessage` is that message as V8
  words it.
- **Refusal excerpt.** A refusal excerpt longer than 100 characters is cut to
  100 characters and then `...` is appended. The message after the prefix can
  therefore be 103 characters long (`Excerpt`, `RefusalExcerpt`).
- **Failed retry.** A failed retry keeps the item's earlier `processed` payload,
  because the error patch does not clear it (`Attempted`, `RetryKeepsLastResult`).

## Model

| member | source | states |
|---|---|---|
| AspectRatio.LabelsDistinct | services/geminiService.ts:15-21 | the five supported ratios have five distinct labels, and every chosen label is one of "1:1", "3:4", "4:3", "9:16", "16:9" |
| AspectRatio.EntriesAreRanked | services/geminiService.ts:15-21 | every ratio sits in the candidate table at its own position, in the source's insertion order, which is what lets the loop's i-th step inspect the ratio of rank i |
| AspectRatio.Scan | services/geminiService.ts:23-32 | the strict-`<` loop over the table, started from the nearest of the entries seen so far with its distance as `minDiff`, ends at the entry of minimal distance, the earliest one on ties |
| AspectRatio.BestConfig | services/geminiService.ts:12-37 | for a measurable image, the chosen ratio is nearest to width/height among the five values, with ties going to the earlier table entry; a zero height gives "1:1" |
| AspectRatio.NearestUnique | services/geminiService.ts:26-32 | the tie-broken nearest ratio is unique |
| AspectRatio.BestConfigIff | services/geminiService.ts:12-37 | getBestConfig chooses `a` exactly when `a` is the tie-broken nearest ratio |
| AspectRatio.ExactValueIsNearest | services/geminiService.ts:12-37 | an image whose ratio equals a table value gets that value's label |
| AspectRatio.ScaledRatio | services/geminiService.ts:13 | width/height is p/q whenever q·width = p·height |
| AspectRatio.SquareShape | services/geminiService.ts:12-37 | a square image gets "1:1" |
| AspectRatio.Portrait3x4Shape | services/geminiService.ts:12-37 | an exact 3×4 image gets "3:4" |
| AspectRatio.Portrait9x16Shape | services/geminiService.ts:12-37 | an exact 9×16 image gets "9:16" |
| AspectRatio.Landscape4x3Shape | services/geminiService.ts:12-37 | an exact 4×3 image gets "4:3", although the table holds the truncated value 1.333333 |
| AspectRatio.Landscape16x9Shape | services/geminiService.ts:12-37 | an exact 16×9 image gets "16:9", although the table holds the truncated value 1.777777 |
| GeminiService.ChooseAspectRatio | services/geminiService.ts:57-64 | a failed probe leaves "1:1"; a successful probe of a measurable image gives the nearest supported ratio, earliest on ties |
| GeminiService.BuildRequest | services/geminiService.ts:69-97 | the request carries the caller's image and mime type, and each of the four harm categories has a safety setting; the threshold type admits only BLOCK_NONE, so every setting is BLOCK_NONE by construction |
| GeminiService.SentAspectRatio | services/geminiService.ts:56-64 | with a key, a request is sent whose aspect ratio is getBestConfig's choice; it is "1:1" when the image cannot be measured |
| GeminiService.ScanParts | services/geminiService.ts:102-112 | the part loop returns an image exactly when some part has non-empty inline data; that image is the FIRST such part's data, and it is non-empty; otherwise the text of all parts is concatenated in order, skipping empty ones |
| GeminiService.FirstImageUnique | services/geminiService.ts:103-106 | the "first image part" is a single, well-defined position |
| GeminiService.ImageReplyResolves | services/geminiService.ts:102-106 | a reply whose parts contain an image resolves to the first image's data |
| GeminiService.TextReplyFails | services/geminiService.ts:114-120 | a reply without an image part fails, with the "Model Refusal" message when some text was returned and with "No image data returned from the model." otherwise |
| GeminiService.Excerpt | services/geminiService.ts:117 | text of at most 100 characters is kept whole; longer text keeps its first 100 characters followed by "..." |
| GeminiService.RefusalMessage | services/geminiService.ts:116-117 | the refusal message is "Model Refusal: " followed by the excerpt of the trimmed text, and is at most 118 characters long |
| GeminiService.RefusalExcerpt | services/geminiService.ts:115-118 | short trimmed text appears verbatim after the prefix; long text appears as a 100-character prefix of the trimmed text followed by "..." |
| GeminiService.PartsOf | services/geminiService.ts:102 | the guard fails by throwing exactly when the candidates array is empty; it yields a parts list exactly when the first candidate has content with parts |
| GeminiService.Interpret | services/geminiService.ts:99-120 | the reply resolves exactly when the first candidate's parts contain an image part, and then to the first image part's data; otherwise the error is the empty-candidates TypeError, the no-image message or a "Model Refusal: " message |
| GeminiService.MissingPartsFail | services/geminiService.ts:102-120 | a reply with no candidate content or no parts yields the no-image error |
| GeminiService.EmptyCandidatesFail | services/geminiService.ts:102-124 | an empty candidates array throws inside the try, and that error's message is re-thrown |
| GeminiService.Rethrow | services/geminiService.ts:122-124 | the re-thrown message is the caught message when that is non-empty, otherwise "Failed to process image."; it is never empty |
| GeminiService.TransportErrorRethrown | services/geminiService.ts:122-124 | an exception from the SDK call surfaces as its own message, or as "Failed to process image." when the message is empty |
| GeminiService.RemoveWatermark | services/geminiService.ts:47-126 | without a key nothing is sent and the error is "API Key is missing."; with a key exactly the built request is sent; a success carries a non-empty payload; every error message is non-empty |
| Strings.ContainsIff | App.tsx:97-99 | `includes` holds exactly when the substring occurs at some position |
| Strings.ContainsAt | App.tsx:97-99 | an occurrence at any position makes `includes` true |
| Strings.TrimStart | services/geminiService.ts:116 | trimming the front removes only whitespace and leaves a suffix that does not start with whitespace |
| Strings.TrimEnd | services/geminiService.ts:116 | trimming the back removes only whitespace and leaves a prefix that does not end with whitespace |
| Strings.Trim | services/geminiService.ts:116 | `trim` returns a contiguous slice of the input, with only whitespace outside it and no whitespace at either end |
| Strings.TrimIdempotent | services/geminiService.ts:116 | trimming twice is trimming once |
| ErrorClassifier.ClassifyError | App.tsx:95-101 | a message mentioning 403 or PERMISSION_DENIED becomes the permission message; otherwise one mentioning 429 or RESOURCE_EXHAUSTED becomes the quota message; otherwise the message is kept, or "Failed" when it is empty |
| ErrorClassifier.LacksChar | App.tsx:97-99 | a message lacking one character of a marker does not contain that marker |
| ErrorClassifier.NoPermissionMarkers | App.tsx:97 | a message with neither '3' nor '_' mentions neither 403 nor PERMISSION_DENIED |
| ErrorClassifier.NoQuotaMarkers | App.tsx:99 | a message with neither '9' nor '_' mentions neither 429 nor RESOURCE_EXHAUSTED |
| ErrorClassifier.UnmarkedPassesThrough | App.tsx:95-101 | a non-empty message with no '3', '9' or '_' is stored unchanged |
| ErrorClassifier.PermissionMessageIsStable | App.tsx:97-98 | the permission message classifies to itself |
| ErrorClassifier.QuotaMarkedIsQuota | App.tsx:99-100 | a message containing "429" and neither '3' nor '_' becomes the quota message |
| ErrorClassifier.QuotaMessageIsStable | App.tsx:99-100 | the quota message, which itself contains "429", classifies to itself |
| ErrorClassifier.ClassifyErrorIdempotent | App.tsx:95-101 | classifying an already classified message changes nothing |
| ErrorClassifier.ClassifyErrorRange | App.tsx:95-101 | the stored error is one of the two fixed messages, the original message or "Failed", and is never empty |
| Types.MergeLaws | App.tsx:66 | spreading an empty patch changes nothing, spreading a patch twice equals spreading it once, and two patches in a row act as one in which the later patch wins every field both name |
| App.Find | App.tsx:82 | `find` returns an item exactly when some item has the id, and it returns the first such item |
| App.FirstWithIdUnique | App.tsx:82 | the first item with a given id is a single position |
| App.FindDistinct | App.tsx:82 | when ids are distinct, looking up an item's id returns that item |
| App.SelectedImage | App.tsx:132 | the selected image exists exactly when the selected id names an item in the queue, and that item carries the id |
| App.UpdateImageStatus | App.tsx:63-68 | the queue keeps its length; every item with the id is merged with the update; every other item is unchanged |
| App.UpdateAbsentId | App.tsx:63-68 | updating an id that is not in the queue changes nothing |
| App.UpdateKeepsIds | App.tsx:63-68 | an update that does not set `id` keeps every item's id |
| App.FindAfterUpdate | App.tsx:63-82 | after an update, looking up the id returns the merged form of what it returned before |
| App.Without | App.tsx:72 | the filtered queue holds exactly the items whose id differs from the removed one |
| App.WithoutAppend | App.tsx:72 | filtering distributes over concatenation |
| App.WithoutAbsent | App.tsx:72 | removing an id that is not in the queue keeps the queue |
| App.RemoveImage | App.tsx:70-79 | removal filters the queue; if the removed item was selected, the selection moves to the new first item, or to none when the queue is empty; any other selection is kept |
| App.RemoveKeepsSelectionValid | App.tsx:70-79 | if the selection named an item or nothing before removal, it does so afterwards, and it never names the removed id |
| App.NewItems | App.tsx:28-52 | exactly one new item per accepted file (image/* type, readable data URL): the count equals the number of accepted files, every accepted file's item is present, and every item is PENDING with no result and no error and comes from an accepted file |
| App.AddImages | App.tsx:54-60 | new items are appended after the existing ones; a non-empty selected id is kept; otherwise the first new item is selected when there is one, and the old selection is kept when there is none |
| App.HandleFilesSelected | App.tsx:22-61 | a null file list changes nothing; otherwise the old queue stays a prefix, followed by exactly one PENDING item with no result and no error per accepted file; a non-empty selected id is kept, otherwise the first new item is selected when there is one, and the old selection is kept when there is none |
| App.AddKeepsSelectionValid | App.tsx:54-60 | adding items keeps the selection pointing at an item or at nothing |
| App.AddKeepsIdsDistinct | App.tsx:37-57 | fresh ids that differ from each other and from existing ids keep all ids distinct |
| App.Started | App.tsx:85 | the item shown while processing is PROCESSING with no error; its content, name and earlier result are kept |
| App.Attempted | App.tsx:87-107 | success sets SUCCESS and the new payload; failure sets ERROR, stores the classified message and keeps the earlier payload; identity fields never change |
| App.ProcessImage | App.tsx:81-108 | an unknown id or a missing key changes nothing; otherwise the items with that id end as the attempt's outcome, and everything else, including the selection and batch flag, is unchanged |
| App.ProcessingIsVisible | App.tsx:85 | between start and settle the item is marked PROCESSING |
| App.RetryKeepsLastResult | App.tsx:89-106 | a failed retry keeps the previous payload and ends in ERROR; a successful one replaces it and ends in SUCCESS |
| Batch.Eligible | App.tsx:115 | the snapshot holds exactly the queue's PENDING and ERROR items |
| Batch.EligibleAppend | App.tsx:115 | the snapshot filter distributes over concatenation |
| Batch.RankStep | App.tsx:115-119 | an item's position in the snapshot counts the eligible items before it |
| Batch.EligibleFrom | App.tsx:115 | the snapshot of a suffix starts with that suffix's first item exactly when that item is eligible |
| Batch.RunQueue | App.tsx:119-127 | the loop visits the snapshot in order, selecting each item as it goes; it keeps the key, the batch flag and the queue length, and leaves the last item selected |
| Batch.HandleProcessAll | App.tsx:110-130 | without a key nothing happens; otherwise one visit per snapshot item, each with the batch flag set, single processing disabled and that item selected; the flag is cleared at the end |
| Batch.SettledKeepsIds | App.tsx:115-127 | during the run every position keeps its id, so ids stay distinct |
| Batch.SettleOne | App.tsx:119-124 | replacing exactly the items that carry the current snapshot item's id by its attempt settles that item and leaves the others as they were |
| Batch.StepSettles | App.tsx:119-124 | processing the next snapshot item settles exactly that item, using the reply for its snapshot position |
| Batch.SkipSettles | App.tsx:115-119 | items outside the snapshot are skipped |
| Batch.RunQueueSettles | App.tsx:119-127 | after the loop, every snapshot item has settled with its own reply and every other item is unchanged |
| Batch.SettlesAfterStep | App.tsx:119-127 | the same invariant, continued after a processed item |
| Batch.VisitsFreshCons | App.tsx:121-123 | a visit at which the item is still in its original state extends a run of such visits |
| Batch.RunQueueVisitsFresh | App.tsx:121-123 | when each item is visited, it is still in the queue unchanged, so every processImage call finds it |
| Batch.VisitsAfterStep | App.tsx:121-123 | the same, continued after a processed item |
| Batch.BatchOutcome | App.tsx:110-130 | with distinct ids and a key, every PENDING/ERROR item ends as the outcome of its own attempt, every other item is unchanged, and each item is found unchanged when visited |
| Batch.BatchRestoresProcessing | App.tsx:110-133 | with a key, single processing is disabled at every visit of a run and enabled again when the run ends; without a key it stays disabled |
| Batch.FailureDoesNotStopRun | App.tsx:119-127 | each snapshot item ends in SUCCESS or ERROR, so a failure does not stop the items after it |
| Batch.NoneLeftProcessing | App.tsx:110-130 | if no item was PROCESSING before the run, none is afterwards |
| Sidebar.PendingCount | components/Sidebar.tsx:35 | the count is the size of the batch snapshot |
| Sidebar.ProcessAllDisabled | components/Sidebar.tsx:35-63 | Process-all is disabled exactly while a batch runs or when no item is PENDING or ERROR |
| Sidebar.EnabledButtonProcessesSomething | components/Sidebar.tsx:63 | an enabled Process-all with a key runs one visit per pending item, and there is at least one |
| Sidebar.StatusLabel | components/Sidebar.tsx:106 | the label reads "Ready" exactly for PENDING items, and every other status shows its own name (PROCESSING, SUCCESS, ERROR) |
| Sidebar.StatusLabelDistinct | components/Sidebar.tsx:106 | PENDING reads "Ready", and the four statuses have four different labels |
| Sidebar.StatusIcon | components/Sidebar.tsx:26-33 | an item has no icon exactly when it is PENDING |
| Sidebar.StatusIconDistinct | components/Sidebar.tsx:26-33 | only PENDING has no icon, and the other three statuses have different icons |
| ResultDisplay.Download | components/ResultDisplay.tsx:19-27 | a link exists exactly for a present item with a non-empty processed payload, and its href is the data URL of that payload with the item's mime type |
| ResultDisplay.DownloadName | components/ResultDisplay.tsx:23 | the file name is "watermark-removed-" followed by the item's name, which can be read back from it |
| ResultDisplay.ToolbarFor | components/ResultDisplay.tsx:52-76 | Process/Retry shows exactly for items that are neither SUCCESS nor PROCESSING, is disabled exactly when processing is not allowed, and reads "Retry" exactly for ERROR and "Process" otherwise; Download shows exactly for SUCCESS; the two never show together |
| ResultDisplay.ErrorText | components/ResultDisplay.tsx:110 | the shown error is the item's error when non-empty, otherwise "Unknown error"; it is never empty |
| ResultDisplay.PreviewFor | components/ResultDisplay.tsx:101-124 | the pane shows the spinner, the failure, the result or the start prompt exactly for PROCESSING, ERROR, SUCCESS and PENDING; the failure shows the error text (the item's error, or "Unknown error"), the result is the data URL of the processed payload with the item's mime type (the text "null" standing for a missing payload, as the template literal renders it), and the start prompt carries the key hint exactly when there is no key |
| ResultDisplay.AppViewShowsSelection | components/ResultDisplay.tsx:29-36 | the pane shows its empty prompt exactly when no queued item carries the selected id; otherwise its toolbar is that item's, with the app's `canProcess` |
| ResultDisplay.BatchShowsCurrentItem | App.tsx:121-133 | during a batch, the item being processed is the displayed item, and no enabled Process/Retry button is shown |
| ResultDisplay.SettledItemOnScreen | components/ResultDisplay.tsx:52-124 | a settled item with a non-empty payload shows Download with that payload; a failed one shows Retry, disabled exactly when processing is not allowed, and its classified message |
| ResultDisplay.AttemptOutcomeOnScreen | components/ResultDisplay.tsx:52-76 | after a successful attempt, Download is offered for exactly the new payload; after a failed one, Retry is offered, disabled exactly when processing is not allowed, and the classified message is shown |

## Left out

- The Gemini SDK call is a parameter (`CallOutcome`). The model does not say what the model service returns or whether the request succeeds.
- The image-dimension probe (`new Image()`, `onload`/`onerror`) is a parameter. `None` stands for a load error.
- FileReader and the data-URL regex are left out. Each file arrives already split into mime type and payload, or as `None` when the regex would not match.
- File-read completion order is left out. `NewItems` appends items in file order; in the app the order is the order in which reads finish.
- Random ids (`Math.random`, `Date.now`) are a parameter `idFor`. The batch lemmas assume distinct ids.
- Batch.BatchOutcome: assumes distinct ids. The app does not guarantee them; with a duplicate id, every item sharing it is patched.
- Batch.HandleProcessAll: the 2000 ms pause between items is left out, because it changes no state.
- Batch.HandleProcessAll: concurrency is left out. The model does not cover an item removed or added by the user during a run, React's batching of `setState`, or the stale `state` closure that `processImage` reads; lookups use the current state, which matches a sequential run without interference.
- Single-item processing while a batch runs is not modelled as an interleaving, since its button is disabled.
- GeminiService.EmptyCandidatesFail: the TypeError's wording is engine-specific; the V8 message is used.
- AspectRatio.BestConfig: uses exact rational arithmetic instead of IEEE doubles. The table values 1.333333 and 1.777777 are exact decimals here. Results could differ only for a ratio within rounding error of a tie.
- Strings.Trim: lengths are counted in Unicode characters, and the excerpt cuts at 100 characters. JavaScript counts UTF-16 code units, so results differ for text outside the Basic Multilingual Plane.
- The API-key input (`setApiKey`, Header.tsx) and the upload drop zone (ImageUploader.tsx) are left out. Header.tsx and ImageUploader.tsx are not part of this model; the key is a field of the state.
- Clicking a sidebar entry sets `selectedId` directly and is not modelled.
- The mechanics of the download (creating, clicking and removing the anchor) are left out; only the link's href and file name are modelled.
- JSX markup, CSS classes, colours, the "Restored" badge and the thumbnails are left out.
- Console logging is left out.

=== FILE: App.dfy ===
/**
 * The state operations of App.tsx: file intake, the map-by-id status update,
 * removal with selection repair, single-item processing with its error
 * classifier, and the derived `canProcess` / `selectedImage` values.
 * Each React `setState(prev => …)` is a pure function from the previous state.
 */
module App {
  import opened Wrappers
  import opened Strings
  import opened Types
  import GeminiService
  import opened ErrorClassifier

  // ---------------------------------------------------------------------------
  // Lookup

  /** `images.find(i => i.id === id)`: the first item carrying `id`. */
  function Find(images: seq<ImageItem>, id: string): (r: Option<ImageItem>)
    ensures r.Some? <==> HasId(images, id)
    ensures r.Some? ==> exists i :: FirstWithId(images, id, i) && images[i] == r.value
  {
    if |images| == 0 then None
    else if images[0].id == id then
      assert FirstWithId(images, id, 0);
      Some(images[0])
    else
      var rest := Find(images[1..], id);
      assert forall i :: 0 < i < |images| ==> images[i] == images[1..][i - 1];
      assert forall i :: FirstWithId(images[1..], id, i) ==> FirstWithId(images, id, i + 1);
      rest
  }

  /** Item `i` is the first one carrying `id`. */
  ghost predicate FirstWithId(images: seq<ImageItem>, id: string, i: int)
  {
    0 <= i < |images| && images[i].id == id && forall j :: 0 <= j < i ==> images[j].id != id
  }

  /** At most one index is the first to carry an id. */
  lemma FirstWithIdUnique(images: seq<ImageItem>, id: string, a: int, b: int)
    requires FirstWithId(images, id, a) && FirstWithId(images, id, b)
    ensures a == b
  {
  }

  /** With distinct ids, `find` returns the item at the one index carrying the id. */
  lemma FindDistinct(images: seq<ImageItem>, i: int)
    requires DistinctIds(images) && 0 <= i < |images|
    ensures Find(images, images[i].id) == Some(images[i])
  {
    var r := Find(images, images[i].id);
    var j :| FirstWithId(images, images[i].id, j) && images[j] == r.value;
    assert j == i by {
      if j < i { assert images[j].id == images[i].id; }
    }
  }

  /** `selectedImage`: the item the selection names, if it still exists. */
  function SelectedImage(s: AppState): (r: Option<ImageItem>)
    ensures r.Some? <==> s.selectedId.Some? && HasId(s.images, s.selectedId.value)
    ensures r.Some? ==> r.value.id == s.selectedId.value && r.value in s.images
  {
    if s.selectedId.None? then None else Find(s.images, s.selectedId.value)
  }

  /** `canProcess`: a credential is present and no batch run is in progress. */
  predicate CanProcess(s: AppState)
  {
    Truthy(s.apiKey) && !s.isBatchProcessing
  }

  // ---------------------------------------------------------------------------
  // updateImageStatus

  /** `images.map(img => img.id === id ? { ...img, ...updates } : img)`. */
  function UpdateImageStatus(images: seq<ImageItem>, id: string, u: Patch): (r: seq<ImageItem>)
    ensures |r| == |images|
    ensures forall i :: 0 <= i < |images| && images[i].id != id ==> r[i] == images[i]
    ensures forall i :: 0 <= i < |images| && images[i].id == id ==> r[i] == Merge(images[i], u)
  {
    if |images| == 0 then []
    else [if images[0].id == id then Merge(images[0], u) else images[0]] + UpdateImageStatus(images[1..], id, u)
  }

  /** Updating an id no item carries leaves the list as it was. */
  lemma UpdateAbsentId(images: seq<ImageItem>, id: string, u: Patch)
    requires !HasId(images, id)
    ensures UpdateImageStatus(images, id, u) == images
  {
  }

  /** A patch that does not name an id keeps every item's id. */
  lemma UpdateKeepsIds(images: seq<ImageItem>, id: string, u: Patch)
    requires u.id.None?
    ensures forall i :: 0 <= i < |images| ==> UpdateImageStatus(images, id, u)[i].id == images[i].id
  {
  }

  /** After an update that keeps ids, looking the id up yields the first match with the patch applied. */
  lemma FindAfterUpdate(images: seq<ImageItem>, id: string, u: Patch)
    requires u.id.None?
    ensures Find(UpdateImageStatus(images, id, u), id) ==
            (if Find(images, id).Some? then Some(Merge(Find(images, id).value, u)) else None)
  {
    var r := UpdateImageStatus(images, id, u);
    var found := Find(images, id);
    if found.Some? {
      var j :| FirstWithId(images, id, j) && images[j] == found.value;
      UpdateKeepsIds(images, id, u);
      assert FirstWithId(r, id, j);
      var after := Find(r, id);
      var k :| FirstWithId(r, id, k) && r[k] == after.value;
      FirstWithIdUnique(r, id, j, k);
    } else {
      UpdateKeepsIds(images, id, u);
      assert !HasId(r, id);
    }
  }

  // ---------------------------------------------------------------------------
  // handleRemoveImage

  /** `images.filter(img => img.id !== id)`. */
  function Without(images: seq<ImageItem>, id: string): (r: seq<ImageItem>)
    ensures |r| <= |images|
    ensures forall x :: x in r <==> x in images && x.id != id
  {
    if |images| == 0 then []
    else (if images[0].id != id then [images[0]] else []) + Without(images[1..], id)
  }

  /** Filtering distributes over concatenation, so survivors keep their relative order. */
  lemma {:induction false} WithoutAppend(a: seq<ImageItem>, b: seq<ImageItem>, id: string)
    ensures Without(a + b, id) == Without(a, id) + Without(b, id)
    decreases |a|
  {
    if |a| == 0 {
      assert a + b == b;
    } else {
      var head := if a[0].id != id then [a[0]] else [];
      assert (a + b)[0] == a[0];
      assert (a + b)[1..] == a[1..] + b;
      WithoutAppend(a[1..], b, id);
      calc {
        Without(a + b, id);
        head + Without(a[1..] + b, id);
        head + (Without(a[1..], id) + Without(b, id));
        (head + Without(a[1..], id)) + Without(b, id);
      }
    }
  }

  /** Removing an id nobody carries changes nothing. */
  lemma {:induction false} WithoutAbsent(images: seq<ImageItem>, id: string)
    requires !HasId(images, id)
    ensures Without(images, id) == images
    decreases |images|
  {
    if |images| > 0 {
      assert !HasId(images[1..], id) by {
        assert forall i :: 0 <= i < |images[1..]| ==> images[1..][i] == images[i + 1];
      }
      WithoutAbsent(images[1..], id);
    }
  }

  /** The selection names nothing or an item that exists. */
  ghost predicate SelectionValid(s: AppState)
  {
    s.selectedId.None? || HasId(s.images, s.selectedId.value)
  }

  /** `handleRemoveImage(id)`. */
  function RemoveImage(s: AppState, id: string): (r: AppState)
    ensures r.images == Without(s.images, id)
    ensures r.apiKey == s.apiKey && r.isBatchProcessing == s.isBatchProcessing
    ensures s.selectedId == Some(id) && |r.images| > 0 ==> r.selectedId == Some(r.images[0].id)
    ensures s.selectedId == Some(id) && |r.images| == 0 ==> r.selectedId.None?
    ensures s.selectedId != Some(id) ==> r.selectedId == s.selectedId
  {
    var survivors := Without(s.images, id);
    s.(images := survivors,
       selectedId := if s.selectedId == Some(id) then (if |survivors| > 0 then Some(survivors[0].id) else None)
                     else s.selectedId)
  }

  /** Removal keeps a valid selection valid, and the selection never names the removed id afterwards. */
  lemma RemoveKeepsSelectionValid(s: AppState, id: string)
    requires SelectionValid(s)
    ensures SelectionValid(RemoveImage(s, id))
    ensures RemoveImage(s, id).selectedId != Some(id)
  {
    var r := RemoveImage(s, id);
    if s.selectedId.Some? && s.selectedId.value != id {
      var i :| 0 <= i < |s.images| && s.images[i].id == s.selectedId.value;
      assert s.images[i] in r.images;
      var k :| 0 <= k < |r.images| && r.images[k] == s.images[i];
    } else if r.selectedId.Some? {
      assert r.images[0].id != id by {
        assert r.images[0] in r.images;
      }
    }
  }

  // ---------------------------------------------------------------------------
  // handleFilesSelected (state part)

  /** One entry of the chosen `FileList`, with the outcome of reading it as a data URL. */
  datatype SelectedFile = SelectedFile(name: string, fileType: string, decoded: Option<DataUrl>)

  /** The two halves of a `data:<mimeType>;base64,<payload>` URL. */
  datatype DataUrl = DataUrl(mimeType: string, payload: string)

  const ImageTypePrefix := "image/"

  /** A file yields an item when its type starts with "image/" and its data URL splits into type and payload. */
  predicate Accepted(f: SelectedFile)
  {
    StartsWith(f.fileType, ImageTypePrefix) && f.decoded.Some?
  }

  /** The item built for an accepted file. */
  function NewItem(id: string, f: SelectedFile): (item: ImageItem)
    requires f.decoded.Some?
  {
    ImageItem(id, f.decoded.value.payload, None, f.decoded.value.mimeType, Pending, None, f.name)
  }

  /** How many of `files` are accepted. */
  function AcceptedCount(files: seq<SelectedFile>): (n: nat)
    ensures n <= |files|
  {
    if |files| == 0 then 0
    else AcceptedCount(files[..|files| - 1]) + (if Accepted(files[|files| - 1]) then 1 else 0)
  }

  /** The items the accepted files yield, one per accepted file, in file order; `idFor(i)` is the id generated for file `i`. */
  function NewItems(files: seq<SelectedFile>, idFor: nat -> string): (r: seq<ImageItem>)
    ensures |r| == AcceptedCount(files)
    ensures forall x :: x in r ==> x.status == Pending && x.processed.None? && x.error.None?
    ensures forall x :: x in r ==> exists i :: 0 <= i < |files| && Accepted(files[i]) && x == NewItem(idFor(i), files[i])
    ensures forall i :: 0 <= i < |files| && Accepted(files[i]) ==> NewItem(idFor(i), files[i]) in r
    decreases |files|
  {
    if |files| == 0 then []
    else
      var n := |files| - 1;
      var init := files[..n];
      assert forall i :: 0 <= i < n ==> init[i] == files[i];
      NewItems(init, idFor) + (if Accepted(files[n]) then [NewItem(idFor(n), files[n])] else [])
  }

  /** The `setState` after every reader finished: append, and select the first new item if nothing is selected. */
  function AddImages(s: AppState, newImages: seq<ImageItem>): (r: AppState)
    ensures |r.images| == |s.images| + |newImages|
    ensures r.images[..|s.images|] == s.images && r.images[|s.images|..] == newImages
    ensures r.apiKey == s.apiKey && r.isBatchProcessing == s.isBatchProcessing
    ensures s.selectedId.Some? && Truthy(s.selectedId.value) ==> r.selectedId == s.selectedId
    ensures !(s.selectedId.Some? && Truthy(s.selectedId.value)) && |newImages| > 0 ==> r.selectedId == Some(newImages[0].id)
    ensures !(s.selectedId.Some? && Truthy(s.selectedId.value)) && |newImages| == 0 ==> r.selectedId == s.selectedId
  {
    var keep := s.selectedId.Some? && Truthy(s.selectedId.value);
    s.(images := s.images + newImages,
       selectedId := if keep then s.selectedId else if |newImages| > 0 then Some(newImages[0].id) else s.selectedId)
  }

  /**
   * `handleFilesSelected(files)`: a null file list changes nothing; otherwise
   * the queue gains exactly one new PENDING item per accepted file after its
   * existing items, and the selection follows `AddImages`.
   */
  function HandleFilesSelected(s: AppState, files: Option<seq<SelectedFile>>, idFor: nat -> string): (r: AppState)
    ensures files.None? ==> r == s
    ensures r.apiKey == s.apiKey && r.isBatchProcessing == s.isBatchProcessing
    ensures |r.images| == |s.images| + (if files.Some? then AcceptedCount(files.value) else 0)
    ensures files.Some? ==>
              var fs := files.value;
              var added := r.images[|s.images|..];
              && r.images[..|s.images|] == s.images
              && (forall x :: x in added ==> x.status == Pending && x.processed.None? && x.error.None?)
              && (forall x :: x in added ==> exists i :: 0 <= i < |fs| && Accepted(fs[i]) && x == NewItem(idFor(i), fs[i]))
              && (forall i :: 0 <= i < |fs| && Accepted(fs[i]) ==> NewItem(idFor(i), fs[i]) in added)
    ensures files.Some? && s.selectedId.Some? && Truthy(s.selectedId.value) ==> r.selectedId == s.selectedId
    ensures files.Some? && !(s.selectedId.Some? && Truthy(s.selectedId.value)) && AcceptedCount(files.value) > 0
            ==> r.selectedId == Some(r.images[|s.images|].id)
    ensures files.Some? && !(s.selectedId.Some? && Truthy(s.selectedId.value)) && AcceptedCount(files.value) == 0
            ==> r.selectedId == s.selectedId
  {
    match files
    case None => s
    case Some(fs) => AddImages(s, NewItems(fs, idFor))
  }

  /** Intake keeps a valid selection valid and selects something whenever the queue becomes non-empty. */
  lemma AddKeepsSelectionValid(s: AppState, newImages: seq<ImageItem>)
    requires SelectionValid(s)
    ensures SelectionValid(AddImages(s, newImages))
  {
    var r := AddImages(s, newImages);
    if r.selectedId.Some? {
      if r.selectedId == s.selectedId {
        var i :| 0 <= i < |s.images| && s.images[i].id == s.selectedId.value;
        assert r.images[i] == s.images[i];
      } else {
        assert r.images[|s.images|] == newImages[0];
      }
    }
  }

  /** Intake with ids distinct from each other and from the queue keeps all ids distinct. */
  lemma AddKeepsIdsDistinct(s: AppState, newImages: seq<ImageItem>)
    requires DistinctIds(s.images) && DistinctIds(newImages)
    requires forall x, y :: x in s.images && y in newImages ==> x.id != y.id
    ensures DistinctIds(AddImages(s, newImages).images)
  {
    var r := AddImages(s, newImages).images;
    forall i, j | 0 <= i < j < |r| ensures r[i].id != r[j].id {
      if j >= |s.images| {
        assert r[j] == newImages[j - |s.images|];
        if i < |s.images| {
          assert r[i] == s.images[i];
        } else {
          assert r[i] == newImages[i - |s.images|];
        }
      } else {
        assert r[i] == s.images[i] && r[j] == s.images[j];
      }
    }
  }

  // ---------------------------------------------------------------------------
  // processImage

  /** Outcomes of the oracles behind one `removeWatermark` call: the dimension probe and the SDK call. */
  datatype Oracle = Oracle(probe: Option<GeminiService.Dimensions>, call: GeminiService.CallOutcome)

  /** What `removeWatermark(apiKey, img.original, img.mimeType)` resolves or throws. */
  function Outcome(apiKey: string, img: ImageItem, o: Oracle): Result<string, string>
  {
    GeminiService.RemoveWatermark(apiKey, GeminiService.InlineData(img.original, img.mimeType), o.probe, o.call).result
  }

  /** `{ status: 'PROCESSING', error: null }`. */
  const StartPatch := Patch(None, None, None, None, Some(Processing), Some(None), None)

  /** `{ status: 'SUCCESS', processed }` or `{ status: 'ERROR', error }` with the classified message. */
  function SettlePatch(result: Result<string, string>): Patch
  {
    match result
    case Ok(data) => Patch(None, None, Some(Some(data)), None, Some(Success), None, None)
    case Err(m) => Patch(None, None, None, None, Some(Error), Some(Some(ClassifyError(m))), None)
  }

  /** The item once an attempt started on it. */
  function Started(img: ImageItem): (r: ImageItem)
    ensures r.status == Processing && r.error.None?
    ensures r.id == img.id && r.original == img.original && r.mimeType == img.mimeType
    ensures r.name == img.name && r.processed == img.processed
  {
    Merge(img, StartPatch)
  }

  /**
   * The item once an attempt with `result` finished: SUCCESS with the new
   * payload and no error, or ERROR with the classified message and the
   * earlier payload (if any) kept.
   */
  function Attempted(img: ImageItem, result: Result<string, string>): (r: ImageItem)
    ensures r.id == img.id && r.original == img.original && r.mimeType == img.mimeType && r.name == img.name
    ensures r.status == Success <==> result.Ok?
    ensures r.status == Success || r.status == Error
    ensures result.Ok? ==> r.processed == Some(result.value) && r.error.None?
    ensures result.Err? ==> r.processed == img.processed && r.error == Some(ClassifyError(result.error))
  {
    Merge(Started(img), SettlePatch(result))
  }

  /** The state after `updateImageStatus(id, { status: 'PROCESSING', error: null })`. */
  function StartProcessing(s: AppState, id: string): AppState
  {
    s.(images := UpdateImageStatus(s.images, id, StartPatch))
  }

  /**
   * `processImage(id)`: nothing happens without the item or without a
   * credential; otherwise every item carrying the id goes through PROCESSING
   * and ends as the outcome of the call made with the item found dictates.
   */
  function ProcessImage(s: AppState, id: string, o: Oracle): (r: AppState)
    ensures Find(s.images, id).None? || !Truthy(s.apiKey) ==> r == s
    ensures r.apiKey == s.apiKey && r.selectedId == s.selectedId && r.isBatchProcessing == s.isBatchProcessing
    ensures |r.images| == |s.images|
    ensures forall i :: 0 <= i < |s.images| && s.images[i].id != id ==> r.images[i] == s.images[i]
    ensures Find(s.images, id).Some? && Truthy(s.apiKey) ==>
              forall i :: 0 <= i < |s.images| && s.images[i].id == id ==>
                r.images[i] == Attempted(s.images[i], Outcome(s.apiKey, Find(s.images, id).value, o))
  {
    match Find(s.images, id)
    case None => s
    case Some(img) =>
      if !Truthy(s.apiKey) then s
      else
        var started := StartProcessing(s, id);
        var result := Outcome(s.apiKey, img, o);
        started.(images := UpdateImageStatus(started.images, id, SettlePatch(result)))
  }

  /** Before the call is made the item is visible as PROCESSING with its error cleared. */
  lemma ProcessingIsVisible(s: AppState, i: int)
    requires 0 <= i < |s.images|
    ensures StartProcessing(s, s.images[i].id).images[i] == Started(s.images[i])
    ensures StartProcessing(s, s.images[i].id).images[i].status == Processing
  {
  }

  /**
   * Retrying keeps the last good result on failure and replaces it on success;
   * a SUCCESS item processed again ends as SUCCESS or ERROR by the new outcome.
   */
  lemma RetryKeepsLastResult(s: AppState, i: int, o: Oracle)
    requires DistinctIds(s.images) && 0 <= i < |s.images| && Truthy(s.apiKey)
    ensures var img := s.images[i];
            var after := ProcessImage(s, img.id, o).images[i];
            var result := Outcome(s.apiKey, img, o);
            && (result.Err? ==> after.processed == img.processed && after.status == Error)
            && (result.Ok? ==> after.processed == Some(result.value) && after.status == Success)
  {
    FindDistinct(s.images, i);
  }
}

=== FILE: AspectRatio.dfy ===
/**
 * Snapping an image's width/height ratio to the nearest output aspect ratio
 * the image model supports (`getBestConfig` in services/geminiService.ts).
 * Ratios are exact rationals here; the source computes with IEEE doubles.
 */
module AspectRatio {

  /** The five supported output aspect ratios, in the order the source enumerates them. */
  datatype Ratio = Square | Portrait3x4 | Landscape4x3 | Portrait9x16 | Landscape16x9
  {
    /** The label sent to the model as `imageConfig.aspectRatio`. */
    function Label(): string
    {
      match this
      case Square => "1:1"
      case Portrait3x4 => "3:4"
      case Landscape4x3 => "4:3"
      case Portrait9x16 => "9:16"
      case Landscape16x9 => "16:9"
    }

    /** The numeric width/height value the source compares against (note the truncated 4:3 and 16:9). */
    function Value(): real
    {
      match this
      case Square => 1.0
      case Portrait3x4 => 0.75
      case Landscape4x3 => 1.333333
      case Portrait9x16 => 0.5625
      case Landscape16x9 => 1.777777
    }

    /** Position in the enumeration order of the ratio table. */
    function Rank(): nat
    {
      match this
      case Square => 0
      case Portrait3x4 => 1
      case Landscape4x3 => 2
      case Portrait9x16 => 3
      case Landscape16x9 => 4
    }
  }

  /** The ratio table in enumeration order. */
  const Entries: seq<Ratio> := [Square, Portrait3x4, Landscape4x3, Portrait9x16, Landscape16x9]

  /** `Number.MAX_VALUE`, the initial `minDiff`: (2 - 2^-52) * 2^1023. */
  const MaxValue: real := 179769313486231570814527423731704356798070567525844996598917476803157260780028538760589558632766878171540458953514382464234321326889464182768467546703537516986049910576551282076245490090389328944075868508455133942304583236903222948165808559332123348274797826204144723168738177180919299881250404026184124858368.0

  function Abs(x: real): real
  {
    if x < 0.0 then -x else x
  }

  /** `Math.abs(ratio - val)` for one table entry. */
  function Distance(ratio: real, a: Ratio): real
  {
    Abs(ratio - a.Value())
  }

  /** `width / height` for a non-zero height. */
  function ImageRatio(width: nat, height: nat): real
    requires height > 0
  {
    width as real / height as real
  }

  /**
   * `a` is the nearest of the first `n` table entries to `ratio`, and every
   * entry enumerated before `a` is strictly farther (earliest wins a tie).
   */
  ghost predicate NearestAmong(ratio: real, a: Ratio, n: nat)
  {
    && a.Rank() < n
    && (forall b: Ratio :: b.Rank() < n ==> Distance(ratio, a) <= Distance(ratio, b))
    && (forall b: Ratio :: b.Rank() < a.Rank() ==> Distance(ratio, a) < Distance(ratio, b))
  }

  /** `a` is the nearest supported ratio to `ratio`, ties going to the earliest entry. */
  ghost predicate IsNearest(ratio: real, a: Ratio)
  {
    NearestAmong(ratio, a, |Entries|)
  }

  /**
   * The `for … of Object.entries(ratios)` loop from entry `i` on, with the
   * strict `<` update. Started from the nearest of the first `i` entries and
   * its distance, it ends at the nearest entry overall, the earliest on ties.
   */
  function Scan(ratio: real, i: nat, best: Ratio, minDiff: real): (r: Ratio)
    requires i <= |Entries|
    ensures 1 <= i && NearestAmong(ratio, best, i) && minDiff == Distance(ratio, best) ==> IsNearest(ratio, r)
    decreases |Entries| - i
  {
    if i == |Entries| then best
    else
      var c := Entries[i];
      var diff := Distance(ratio, c);
      EntriesAreRanked(c);
      if diff < minDiff then
        assert NearestAmong(ratio, best, i) && minDiff == Distance(ratio, best) ==> NearestAmong(ratio, c, i + 1);
        Scan(ratio, i + 1, c, diff)
      else
        assert NearestAmong(ratio, best, i) && minDiff == Distance(ratio, best) ==> NearestAmong(ratio, best, i + 1);
        Scan(ratio, i + 1, best, minDiff)
  }

  /**
   * `getBestConfig(width, height).aspectRatio`. For any ratio a double can
   * hold, the chosen entry minimises |width/height - value|, the earliest
   * entry winning a tie. A zero height makes the JavaScript ratio `Infinity`
   * or `NaN`; no comparison with `MAX_VALUE` succeeds then, so the initial
   * "1:1" stays.
   */
  function BestConfig(width: nat, height: nat): (r: Ratio)
    ensures height == 0 ==> r == Square
    ensures height > 0 && ImageRatio(width, height) < MaxValue ==> IsNearest(ImageRatio(width, height), r)
  {
    if height == 0 then Square
    else
      var ratio := ImageRatio(width, height);
      assert ratio < MaxValue ==> Distance(ratio, Square) < MaxValue && NearestAmong(ratio, Square, 1);
      Scan(ratio, 0, Square, MaxValue)
  }

  /** The table lists every ratio exactly once, at its rank. */
  lemma EntriesAreRanked(a: Ratio)
    ensures a.Rank() < |Entries| && Entries[a.Rank()] == a
  {
  }

  /** Labels tell the ratios apart, and they are the five labels the model accepts. */
  lemma LabelsDistinct(a: Ratio, b: Ratio)
    ensures a.Label() == b.Label() <==> a == b
    ensures a.Label() in {"1:1", "3:4", "4:3", "9:16", "16:9"}
  {
  }

  /** There is only one nearest entry once ties are broken by enumeration order. */
  lemma NearestUnique(ratio: real, a: Ratio, b: Ratio)
    requires IsNearest(ratio, a) && IsNearest(ratio, b)
    ensures a == b
  {
  }

  /** `getBestConfig` returns `a` exactly when `a` is the tie-broken nearest ratio. */
  lemma BestConfigIff(width: nat, height: nat, a: Ratio)
    requires height > 0 && ImageRatio(width, height) < MaxValue
    ensures BestConfig(width, height) == a <==> IsNearest(ImageRatio(width, height), a)
  {
    if IsNearest(ImageRatio(width, height), a) {
      NearestUnique(ImageRatio(width, height), a, BestConfig(width, height));
    }
  }

  /** A ratio at distance zero from an entry selects that entry. */
  lemma ExactValueIsNearest(width: nat, height: nat, a: Ratio)
    requires height > 0 && ImageRatio(width, height) == a.Value()
    ensures BestConfig(width, height) == a
  {
    var ratio := ImageRatio(width, height);
    assert IsNearest(ratio, a);
    BestConfigIff(width, height, a);
  }

  /** `width / height` equals `p / q` when `q * width == p * height`. */
  lemma ScaledRatio(width: nat, height: nat, p: nat, q: nat)
    requires height > 0 && q > 0 && q * width == p * height
    ensures ImageRatio(width, height) == p as real / q as real
  {
    var w, h := width as real, height as real;
    assert q as real * w == p as real * h;
    calc {
      ImageRatio(width, height);
      (q as real * w) / (q as real * h);
      (p as real * h) / (q as real * h);
      p as real / q as real;
    }
  }

  /** A square image gets "1:1". */
  lemma SquareShape(width: nat, height: nat)
    requires height > 0 && width == height
    ensures BestConfig(width, height) == Square
  {
    ScaledRatio(width, height, 1, 1);
    ExactValueIsNearest(width, height, Square);
  }

  /** A 3:4 portrait image gets "3:4". */
  lemma Portrait3x4Shape(width: nat, height: nat)
    requires height > 0 && 4 * width == 3 * height
    ensures BestConfig(width, height) == Portrait3x4
  {
    ScaledRatio(width, height, 3, 4);
    ExactValueIsNearest(width, height, Portrait3x4);
  }

  /** A 9:16 portrait image gets "9:16". */
  lemma Portrait9x16Shape(width: nat, height: nat)
    requires height > 0 && 16 * width == 9 * height
    ensures BestConfig(width, height) == Portrait9x16
  {
    ScaledRatio(width, height, 9, 16);
    ExactValueIsNearest(width, height, Portrait9x16);
  }

  /** A 4:3 landscape image gets "4:3", although the table holds 1.333333 rather than 4/3. */
  lemma Landscape4x3Shape(width: nat, height: nat)
    requires height > 0 && 3 * width == 4 * height
    ensures BestConfig(width, height) == Landscape4x3
  {
    ScaledRatio(width, height, 4, 3);
    assert IsNearest(4.0 / 3.0, Landscape4x3);
    BestConfigIff(width, height, Landscape4x3);
  }

  /** A 16:9 landscape image gets "16:9", although the table holds 1.777777 rather than 16/9. */
  lemma Landscape16x9Shape(width: nat, height: nat)
    requires height > 0 && 9 * width == 16 * height
    ensures BestConfig(width, height) == Landscape16x9
  {
    ScaledRatio(width, height, 16, 9);
    assert IsNearest(16.0 / 9.0, Landscape16x9);
    BestConfigIff(width, height, Landscape16x9);
  }
}

=== FILE: Batch.dfy ===
/**
 * `handleProcessAll` in App.tsx: a sequential run over a snapshot of the
 * PENDING and ERROR items, selecting each one and awaiting `processImage` on
 * it before moving to the next. The 2000 ms pause between items is not modelled.
 */
module Batch {
  import opened Wrappers
  import opened Strings
  import opened Types
  import opened App

  /** `images.filter(img => img.status === 'PENDING' || img.status === 'ERROR')`. */
  function Eligible(images: seq<ImageItem>): (r: seq<ImageItem>)
    ensures |r| <= |images|
    ensures forall x :: x in r <==> x in images && IsEligible(x)
  {
    if |images| == 0 then []
    else (if IsEligible(images[0]) then [images[0]] else []) + Eligible(images[1..])
  }

  /** Filtering distributes over concatenation. */
  lemma {:induction false} EligibleAppend(a: seq<ImageItem>, b: seq<ImageItem>)
    ensures Eligible(a + b) == Eligible(a) + Eligible(b)
    decreases |a|
  {
    if |a| == 0 {
      assert a + b == b;
    } else {
      var head := if IsEligible(a[0]) then [a[0]] else [];
      assert (a + b)[0] == a[0];
      assert (a + b)[1..] == a[1..] + b;
      EligibleAppend(a[1..], b);
      calc {
        Eligible(a + b);
        head + Eligible(a[1..] + b);
        head + (Eligible(a[1..]) + Eligible(b));
        (head + Eligible(a[1..])) + Eligible(b);
      }
    }
  }

  /** The position item `i` takes in the snapshot: the number of eligible items before it. */
  function Rank(images: seq<ImageItem>, i: nat): nat
    requires i <= |images|
  {
    |Eligible(images[..i])|
  }

  /** Rank grows by one past each eligible item and stays put past the others. */
  lemma RankStep(images: seq<ImageItem>, i: nat)
    requires i < |images|
    ensures Rank(images, i + 1) == Rank(images, i) + (if IsEligible(images[i]) then 1 else 0)
  {
    assert images[..i + 1] == images[..i] + [images[i]];
    EligibleAppend(images[..i], [images[i]]);
    assert Eligible([images[i]]) == (if IsEligible(images[i]) then [images[i]] else []) + Eligible([]);
  }

  /** The snapshot from item `i` on: that item (when eligible) followed by the snapshot of the rest. */
  lemma EligibleFrom(images: seq<ImageItem>, i: nat)
    requires i < |images|
    ensures Eligible(images[i..]) == (if IsEligible(images[i]) then [images[i]] else []) + Eligible(images[i + 1..])
  {
    assert images[i..][0] == images[i];
    assert images[i..][1..] == images[i + 1..];
  }

  /** One batch run: the final state and, for each snapshot item, the state in which `processImage` was called on it. */
  datatype BatchRun = BatchRun(final: AppState, visits: seq<AppState>)

  /**
   * The `for (const img of toProcess)` loop from snapshot position `k` on:
   * select the item, then await `processImage` on it with the `k`-th oracle.
   */
  function RunQueue(s: AppState, queue: seq<ImageItem>, k: nat, replies: nat -> Oracle): (r: BatchRun)
    ensures r.final.apiKey == s.apiKey && r.final.isBatchProcessing == s.isBatchProcessing
    ensures |r.final.images| == |s.images|
    ensures r.final.selectedId == (if |queue| > 0 then Some(queue[|queue| - 1].id) else s.selectedId)
    ensures |r.visits| == |queue|
    ensures forall j :: 0 <= j < |queue| ==>
              && r.visits[j].selectedId == Some(queue[j].id)
              && r.visits[j].isBatchProcessing == s.isBatchProcessing
              && r.visits[j].apiKey == s.apiKey
    decreases |queue|
  {
    if |queue| == 0 then BatchRun(s, [])
    else
      var selected := s.(selectedId := Some(queue[0].id));
      var next := ProcessImage(selected, queue[0].id, replies(k));
      var rest := RunQueue(next, queue[1..], k + 1, replies);
      BatchRun(rest.final, [selected] + rest.visits)
  }

  /**
   * `handleProcessAll()`: nothing without a credential; otherwise raise the
   * batch flag, run the snapshot of eligible items in order, and lower the flag.
   */
  function HandleProcessAll(s: AppState, replies: nat -> Oracle): (r: BatchRun)
    ensures !Truthy(s.apiKey) ==> r.final == s && r.visits == []
    ensures r.final.apiKey == s.apiKey && |r.final.images| == |s.images|
    ensures Truthy(s.apiKey) ==> !r.final.isBatchProcessing
    ensures Truthy(s.apiKey) ==> |r.visits| == |Eligible(s.images)|
    ensures Truthy(s.apiKey) ==> forall j :: 0 <= j < |r.visits| ==>
              r.visits[j].isBatchProcessing && !CanProcess(r.visits[j])
              && r.visits[j].selectedId == Some(Eligible(s.images)[j].id)
    ensures Truthy(s.apiKey) && |Eligible(s.images)| > 0 ==>
              r.final.selectedId == Some(Eligible(s.images)[|Eligible(s.images)| - 1].id)
    ensures Truthy(s.apiKey) && |Eligible(s.images)| == 0 ==> r.final.selectedId == s.selectedId
  {
    if !Truthy(s.apiKey) then BatchRun(s, [])
    else
      var run := RunQueue(s.(isBatchProcessing := true), Eligible(s.images), 0, replies);
      BatchRun(run.final.(isBatchProcessing := false), run.visits)
  }

  /** What item `m` of the snapshot's source list looks like once the run has passed index `i`. */
  function Expected(orig: seq<ImageItem>, m: nat, i: nat, apiKey: string, replies: nat -> Oracle): ImageItem
    requires m < |orig| && i <= |orig|
  {
    if m < i && IsEligible(orig[m]) then Attempted(orig[m], Outcome(apiKey, orig[m], replies(Rank(orig, m))))
    else orig[m]
  }

  /** Every item is as `Expected` says after the run has passed index `i`. */
  ghost predicate SettledUpTo(orig: seq<ImageItem>, images: seq<ImageItem>, i: nat, apiKey: string, replies: nat -> Oracle)
    requires i <= |orig|
  {
    |images| == |orig| && forall m :: 0 <= m < |orig| ==> images[m] == Expected(orig, m, i, apiKey, replies)
  }

  /** The items at the snapshot positions hold the same ids as the original list. */
  lemma SettledKeepsIds(orig: seq<ImageItem>, images: seq<ImageItem>, i: nat, apiKey: string, replies: nat -> Oracle)
    requires i <= |orig| && SettledUpTo(orig, images, i, apiKey, replies)
    requires DistinctIds(orig)
    ensures DistinctIds(images)
    ensures forall m :: 0 <= m < |orig| ==> images[m].id == orig[m].id
  {
  }

  /** Replacing exactly the items carrying the id of eligible item `i` by its attempt settles that item. */
  lemma SettleOne(orig: seq<ImageItem>, images: seq<ImageItem>, next: seq<ImageItem>, i: nat, apiKey: string, replies: nat -> Oracle)
    requires DistinctIds(orig) && i < |orig| && IsEligible(orig[i])
    requires SettledUpTo(orig, images, i, apiKey, replies)
    requires |next| == |images|
    requires forall m :: 0 <= m < |images| && images[m].id != orig[i].id ==> next[m] == images[m]
    requires next[i] == Attempted(orig[i], Outcome(apiKey, orig[i], replies(Rank(orig, i))))
    ensures SettledUpTo(orig, next, i + 1, apiKey, replies)
  {
    SettledKeepsIds(orig, images, i, apiKey, replies);
    forall m | 0 <= m < |orig|
      ensures next[m] == Expected(orig, m, i + 1, apiKey, replies)
    {
      if m != i {
        assert images[m].id != orig[i].id;
      }
    }
  }

  /** One iteration on the eligible item at index `i` settles exactly that item. */
  lemma StepSettles(orig: seq<ImageItem>, cur: AppState, i: nat, replies: nat -> Oracle)
    requires DistinctIds(orig) && i < |orig| && IsEligible(orig[i]) && Truthy(cur.apiKey)
    requires SettledUpTo(orig, cur.images, i, cur.apiKey, replies)
    ensures var next := ProcessImage(cur.(selectedId := Some(orig[i].id)), orig[i].id, replies(Rank(orig, i)));
            SettledUpTo(orig, next.images, i + 1, cur.apiKey, replies)
            && Find(cur.images, orig[i].id) == Some(orig[i])
  {
    var selected := cur.(selectedId := Some(orig[i].id));
    var next := ProcessImage(selected, orig[i].id, replies(Rank(orig, i)));
    SettledKeepsIds(orig, cur.images, i, cur.apiKey, replies);
    assert cur.images[i] == orig[i];
    FindDistinct(cur.images, i);
    SettleOne(orig, cur.images, next.images, i, cur.apiKey, replies);
  }

  /** An ineligible item at index `i` is skipped: nothing is settled by passing it. */
  lemma SkipSettles(orig: seq<ImageItem>, images: seq<ImageItem>, i: nat, apiKey: string, replies: nat -> Oracle)
    requires i < |orig| && !IsEligible(orig[i])
    requires SettledUpTo(orig, images, i, apiKey, replies)
    ensures SettledUpTo(orig, images, i + 1, apiKey, replies)
  {
  }

  /** Running the snapshot of `orig[i..]` from a state settled up to `i` settles every item. */
  lemma {:induction false} RunQueueSettles(orig: seq<ImageItem>, cur: AppState, i: nat, replies: nat -> Oracle)
    requires DistinctIds(orig) && i <= |orig| && Truthy(cur.apiKey)
    requires SettledUpTo(orig, cur.images, i, cur.apiKey, replies)
    ensures SettledUpTo(orig, RunQueue(cur, Eligible(orig[i..]), Rank(orig, i), replies).final.images, |orig|, cur.apiKey, replies)
    decreases |orig| - i, 1
  {
    if i == |orig| {
      assert orig[i..] == [];
    } else if IsEligible(orig[i]) {
      SettlesAfterStep(orig, cur, i, replies);
    } else {
      EligibleFrom(orig, i);
      RankStep(orig, i);
      SkipSettles(orig, cur.images, i, cur.apiKey, replies);
      assert Eligible(orig[i..]) == Eligible(orig[i + 1..]);
      assert Rank(orig, i) == Rank(orig, i + 1);
      RunQueueSettles(orig, cur, i + 1, replies);
    }
  }

  /** The eligible case of `RunQueueSettles`: process item `i`, then run the rest of the snapshot. */
  lemma {:induction false} SettlesAfterStep(orig: seq<ImageItem>, cur: AppState, i: nat, replies: nat -> Oracle)
    requires DistinctIds(orig) && i < |orig| && IsEligible(orig[i]) && Truthy(cur.apiKey)
    requires SettledUpTo(orig, cur.images, i, cur.apiKey, replies)
    ensures SettledUpTo(orig, RunQueue(cur, Eligible(orig[i..]), Rank(orig, i), replies).final.images, |orig|, cur.apiKey, replies)
    decreases |orig| - i, 0
  {
    EligibleFrom(orig, i);
    RankStep(orig, i);
    var queue := Eligible(orig[i..]);
    var next := ProcessImage(cur.(selectedId := Some(orig[i].id)), orig[i].id, replies(Rank(orig, i)));
    StepSettles(orig, cur, i, replies);
    assert queue[0] == orig[i];
    assert queue[1..] == Eligible(orig[i + 1..]);
    RunQueueSettles(orig, next, i + 1, replies);
  }

  /** Each visited state still holds the corresponding queue item unchanged under its id. */
  ghost predicate VisitsFresh(visits: seq<AppState>, queue: seq<ImageItem>)
  {
    |visits| == |queue| && forall j :: 0 <= j < |queue| ==> Find(visits[j].images, queue[j].id) == Some(queue[j])
  }

  lemma VisitsFreshCons(v: AppState, x: ImageItem, visits: seq<AppState>, queue: seq<ImageItem>)
    requires Find(v.images, x.id) == Some(x) && VisitsFresh(visits, queue)
    ensures VisitsFresh([v] + visits, [x] + queue)
  {
    var vs, qs := [v] + visits, [x] + queue;
    forall j | 0 <= j < |qs| ensures Find(vs[j].images, qs[j].id) == Some(qs[j]) {
      if j > 0 {
        assert vs[j] == visits[j - 1] && qs[j] == queue[j - 1];
      }
    }
  }

  /**
   * Running the snapshot of `orig[i..]` from a state settled up to `i` calls
   * `processImage` on each snapshot item while it is still in its snapshot state.
   */
  lemma {:induction false} RunQueueVisitsFresh(orig: seq<ImageItem>, cur: AppState, i: nat, replies: nat -> Oracle)
    requires DistinctIds(orig) && i <= |orig| && Truthy(cur.apiKey)
    requires SettledUpTo(orig, cur.images, i, cur.apiKey, replies)
    ensures VisitsFresh(RunQueue(cur, Eligible(orig[i..]), Rank(orig, i), replies).visits, Eligible(orig[i..]))
    decreases |orig| - i, 1
  {
    if i == |orig| {
      assert orig[i..] == [];
    } else if IsEligible(orig[i]) {
      VisitsAfterStep(orig, cur, i, replies);
    } else {
      EligibleFrom(orig, i);
      RankStep(orig, i);
      SkipSettles(orig, cur.images, i, cur.apiKey, replies);
      assert Eligible(orig[i..]) == Eligible(orig[i + 1..]);
      assert Rank(orig, i) == Rank(orig, i + 1);
      RunQueueVisitsFresh(orig, cur, i + 1, replies);
    }
  }

  /** The eligible case of `RunQueueVisitsFresh`. */
  lemma {:induction false} VisitsAfterStep(orig: seq<ImageItem>, cur: AppState, i: nat, replies: nat -> Oracle)
    requires DistinctIds(orig) && i < |orig| && IsEligible(orig[i]) && Truthy(cur.apiKey)
    requires SettledUpTo(orig, cur.images, i, cur.apiKey, replies)
    ensures VisitsFresh(RunQueue(cur, Eligible(orig[i..]), Rank(orig, i), replies).visits, Eligible(orig[i..]))
    decreases |orig| - i, 0
  {
    EligibleFrom(orig, i);
    RankStep(orig, i);
    var queue := Eligible(orig[i..]);
    var tail := Eligible(orig[i + 1..]);
    var selected := cur.(selectedId := Some(orig[i].id));
    var next := ProcessImage(selected, orig[i].id, replies(Rank(orig, i)));
    StepSettles(orig, cur, i, replies);
    assert queue == [orig[i]] + tail;
    assert queue[1..] == tail;
    RunQueueVisitsFresh(orig, next, i + 1, replies);
    var rest := RunQueue(next, tail, Rank(orig, i + 1), replies);
    assert RunQueue(cur, queue, Rank(orig, i), replies).visits == [selected] + rest.visits;
    VisitsFreshCons(selected, orig[i], rest.visits, tail);
  }

  /**
   * The outcome of a batch run with ids distinct and a credential present:
   * every eligible item is attempted once, with the oracle for its snapshot
   * position, whatever happened to the items before it; every other item is
   * left as it was; and each item is still in its snapshot state when its
   * turn comes.
   */
  lemma BatchOutcome(s: AppState, replies: nat -> Oracle)
    requires DistinctIds(s.images) && Truthy(s.apiKey)
    ensures var r := HandleProcessAll(s, replies);
            && |r.final.images| == |s.images|
            && (forall m :: 0 <= m < |s.images| && IsEligible(s.images[m]) ==>
                  r.final.images[m] == Attempted(s.images[m], Outcome(s.apiKey, s.images[m], replies(Rank(s.images, m)))))
            && (forall m :: 0 <= m < |s.images| && !IsEligible(s.images[m]) ==> r.final.images[m] == s.images[m])
            && VisitsFresh(r.visits, Eligible(s.images))
  {
    var started := s.(isBatchProcessing := true);
    assert s.images[0..] == s.images;
    assert s.images[..0] == [];
    assert SettledUpTo(s.images, started.images, 0, s.apiKey, replies);
    RunQueueSettles(s.images, started, 0, replies);
    RunQueueVisitsFresh(s.images, started, 0, replies);
  }

  /** A failing item never stops the run: every eligible item ends as SUCCESS or ERROR. */
  lemma FailureDoesNotStopRun(s: AppState, replies: nat -> Oracle, m: nat)
    requires DistinctIds(s.images) && Truthy(s.apiKey)
    requires m < |s.images| && IsEligible(s.images[m])
    ensures var st := HandleProcessAll(s, replies).final.images[m].status;
            st == Success || st == Error
  {
    BatchOutcome(s, replies);
  }

  /** Without an item PROCESSING before the run, none is left PROCESSING after it. */
  lemma NoneLeftProcessing(s: AppState, replies: nat -> Oracle)
    requires DistinctIds(s.images) && Truthy(s.apiKey)
    requires forall m :: 0 <= m < |s.images| ==> s.images[m].status != Processing
    ensures forall m :: 0 <= m < |s.images| ==> HandleProcessAll(s, replies).final.images[m].status != Processing
  {
    BatchOutcome(s, replies);
  }

  /**
   * `canProcess` during and after a run: with a key, single processing is
   * disabled at every visit and enabled again once the run ends; without a
   * key it stays disabled.
   */
  lemma BatchRestoresProcessing(s: AppState, replies: nat -> Oracle)
    ensures var r := HandleProcessAll(s, replies);
            && (Truthy(s.apiKey) ==> CanProcess(r.final) && forall j :: 0 <= j < |r.visits| ==> !CanProcess(r.visits[j]))
            && (!Truthy(s.apiKey) ==> !CanProcess(r.final))
  {
  }
}

=== FILE: ErrorClassifier.dfy ===
/**
 * The error-message classifier of `processImage` in App.tsx: messages that
 * mention HTTP 403 or PERMISSION_DENIED, or HTTP 429 or RESOURCE_EXHAUSTED,
 * are replaced by fixed user-facing messages; others pass through.
 */
module ErrorClassifier {
  import opened Strings

  const PermissionDeniedMessage := "Permission Denied. Check API Key."

  const QuotaExceededMessage := "Quota Exceeded (429). Please wait."

  const GenericFailureMessage := "Failed"

  /** The catch block of `processImage`: recognise rejected credentials and exhausted quota by substring. */
  function ClassifyError(message: string): (r: string)
    ensures Contains(message, "403") || Contains(message, "PERMISSION_DENIED") ==> r == PermissionDeniedMessage
    ensures (!(Contains(message, "403") || Contains(message, "PERMISSION_DENIED"))
             && (Contains(message, "429") || Contains(message, "RESOURCE_EXHAUSTED"))) ==> r == QuotaExceededMessage
    ensures !(Contains(message, "403") || Contains(message, "PERMISSION_DENIED") || Contains(message, "429") || Contains(message, "RESOURCE_EXHAUSTED"))
            ==> r == (if Truthy(message) then message else GenericFailureMessage)
  {
    var m := if Truthy(message) then message else GenericFailureMessage;
    assert !Truthy(message) ==> !Contains(m, "403") && !Contains(m, "PERMISSION_DENIED")
                                && !Contains(m, "429") && !Contains(m, "RESOURCE_EXHAUSTED") by {
      if !Truthy(message) {
        NoPermissionMarkers(m);
        NoQuotaMarkers(m);
      }
    }
    if Contains(m, "403") || Contains(m, "PERMISSION_DENIED") then PermissionDeniedMessage
    else if Contains(m, "429") || Contains(m, "RESOURCE_EXHAUSTED") then QuotaExceededMessage
    else m
  }

  /** A string lacking one of the characters of `sub` cannot contain `sub`. */
  lemma LacksChar(s: string, sub: string, k: nat)
    requires k < |sub| && forall j :: 0 <= j < |s| ==> s[j] != sub[k]
    ensures !Contains(s, sub)
  {
    ContainsIff(s, sub);
    forall i | OccursAt(s, sub, i) ensures s[i + k] == sub[k] {
      assert s[i..i + |sub|][k] == s[i + k];
    }
  }

  /** Without a '3' or a '_' a message mentions neither HTTP 403 nor PERMISSION_DENIED. */
  lemma NoPermissionMarkers(m: string)
    requires '3' !in m && '_' !in m
    ensures !Contains(m, "403") && !Contains(m, "PERMISSION_DENIED")
  {
    assert forall j :: 0 <= j < |m| ==> m[j] != '3' && m[j] != '_';
    LacksChar(m, "403", 2);
    LacksChar(m, "PERMISSION_DENIED", 10);
  }

  /** Without a '9' or a '_' a message mentions neither HTTP 429 nor RESOURCE_EXHAUSTED. */
  lemma NoQuotaMarkers(m: string)
    requires '9' !in m && '_' !in m
    ensures !Contains(m, "429") && !Contains(m, "RESOURCE_EXHAUSTED")
  {
    assert forall j :: 0 <= j < |m| ==> m[j] != '9' && m[j] != '_';
    LacksChar(m, "429", 2);
    LacksChar(m, "RESOURCE_EXHAUSTED", 8);
  }

  /** A non-empty message without '3', '9' or '_' mentions none of the four markers and passes through. */
  lemma UnmarkedPassesThrough(m: string)
    requires Truthy(m) && forall j :: 0 <= j < |m| ==> m[j] != '3' && m[j] != '9' && m[j] != '_'
    ensures ClassifyError(m) == m
  {
    LacksChar(m, "403", 2);
    LacksChar(m, "PERMISSION_DENIED", 10);
    LacksChar(m, "429", 2);
    LacksChar(m, "RESOURCE_EXHAUSTED", 8);
  }

  /** The permission message contains none of the four markers, so it classifies as itself. */
  lemma PermissionMessageIsStable(m: string)
    requires m == PermissionDeniedMessage
    ensures ClassifyError(m) == m
  {
    assert forall j :: 0 <= j < |m| ==> m[j] != '3' && m[j] != '9' && m[j] != '_';
    UnmarkedPassesThrough(m);
  }

  /** A message with "429" at `i` and without '3' or '_' is recognised as exhausted quota. */
  lemma QuotaMarkedIsQuota(m: string, i: nat)
    requires OccursAt(m, "429", i) && forall j :: 0 <= j < |m| ==> m[j] != '3' && m[j] != '_'
    ensures ClassifyError(m) == QuotaExceededMessage
  {
    LacksChar(m, "403", 2);
    LacksChar(m, "PERMISSION_DENIED", 10);
    ContainsAt(m, "429", i);
  }

  /** The quota message contains "429" but neither 403 marker, so it classifies as itself. */
  lemma QuotaMessageIsStable(m: string)
    requires m == QuotaExceededMessage
    ensures ClassifyError(m) == m
  {
    assert forall j :: 0 <= j < |m| ==> m[j] != '3' && m[j] != '_';
    assert m[16] == '4' && m[17] == '2' && m[18] == '9';
    assert m[16..19] == "429";
    QuotaMarkedIsQuota(m, 16);
  }

  /** Classifying an already classified message changes nothing. */
  lemma ClassifyErrorIdempotent(message: string)
    ensures ClassifyError(ClassifyError(message)) == ClassifyError(message)
  {
    var m := ClassifyError(message);
    if m == PermissionDeniedMessage {
      PermissionMessageIsStable(m);
    } else if m == QuotaExceededMessage {
      QuotaMessageIsStable(m);
    }
  }

  /** The classified message is one of the two fixed messages, the original message, or "Failed". */
  lemma ClassifyErrorRange(message: string)
    ensures ClassifyError(message) in {PermissionDeniedMessage, QuotaExceededMessage, message, GenericFailureMessage}
    ensures Truthy(ClassifyError(message))
  {
  }
}

=== FILE: GeminiService.dfy ===
/**
 * `removeWatermark` from services/geminiService.ts: the credential guard, the
 * aspect-ratio choice with its "1:1" fallback, the request it sends, and the
 * interpretation of the model's reply into image data or an error message.
 *
 * The image-dimension probe and the SDK call are oracles: the probe's outcome
 * is an `Option<Dimensions>` and the call's outcome a `CallOutcome`.
 */
module GeminiService {
  import opened Wrappers
  import opened Strings
  import AspectRatio

  /** Base64 payload plus its MIME type, as in an `inlineData` part. */
  datatype InlineData = InlineData(data: string, mimeType: string)

  /** One output part of a candidate: optional inline image data and optional text. */
  datatype Part = Part(inlineData: Option<InlineData>, text: Option<string>)

  datatype Content = Content(parts: Option<seq<Part>>)

  datatype Candidate = Candidate(content: Option<Content>)

  /** The part of a `generateContent` response the service reads. */
  datatype Response = Response(candidates: Option<seq<Candidate>>)

  /** What the awaited SDK call does: resolve with a response or reject with an error message. */
  datatype CallOutcome = Replied(response: Response) | Threw(message: string)

  /** A successful dimension probe. */
  datatype Dimensions = Dimensions(width: nat, height: nat)

  datatype HarmCategory = HateSpeech | SexuallyExplicit | DangerousContent | Harassment

  datatype Threshold = BlockNone

  datatype SafetySetting = SafetySetting(category: HarmCategory, threshold: Threshold)

  /** The `generateContent` request: model, input image, instruction, output aspect ratio, safety settings. */
  datatype Request = Request(
    model: string,
    image: InlineData,
    prompt: string,
    aspectRatio: AspectRatio.Ratio,
    safetySettings: seq<SafetySetting>)

  /** One call of `removeWatermark`: the request it sent, if any, and what it resolved or threw. */
  datatype Attempt = Attempt(sent: Option<Request>, result: Result<string, string>)

  const ModelName := "gemini-2.5-flash-image"

  const EditPrompt := "Edit this image to remove text overlays and logos. Seamlessly inpaint the background to look natural. Keep the original aspect ratio."

  const SafetySettings: seq<SafetySetting> := [
    SafetySetting(HateSpeech, BlockNone),
    SafetySetting(SexuallyExplicit, BlockNone),
    SafetySetting(DangerousContent, BlockNone),
    SafetySetting(Harassment, BlockNone)
  ]

  const MissingKeyMessage := "API Key is missing."

  const RefusalPrefix := "Model Refusal: "

  const NoImageMessage := "No image data returned from the model."

  const FallbackMessage := "Failed to process image."

  /** Longest refusal excerpt kept before "..." is appended. */
  const ExcerptLimit := 100

  /**
   * The TypeError V8 raises for `response.candidates[0].content` when the
   * candidates array is empty; it is thrown inside the request block.
   */
  const EmptyCandidatesMessage := "Cannot read properties of undefined (reading 'content')"

  /** The aspect ratio placed in `imageConfig`: the snapped ratio when the probe succeeds, "1:1" otherwise. */
  function ChooseAspectRatio(probe: Option<Dimensions>): (r: AspectRatio.Ratio)
    ensures probe.None? ==> r.Label() == "1:1"
    ensures probe.Some? && probe.value.height > 0 && AspectRatio.ImageRatio(probe.value.width, probe.value.height) < AspectRatio.MaxValue
            ==> AspectRatio.IsNearest(AspectRatio.ImageRatio(probe.value.width, probe.value.height), r)
  {
    match probe
    case None => AspectRatio.Square
    case Some(d) => AspectRatio.BestConfig(d.width, d.height)
  }

  /** Some setting names harm category `c`. */
  ghost predicate Covers(settings: seq<SafetySetting>, c: HarmCategory)
  {
    exists i :: 0 <= i < |settings| && settings[i].category == c
  }

  /** The request sent for `image`, given the probe's outcome. */
  function BuildRequest(image: InlineData, probe: Option<Dimensions>): (req: Request)
    ensures req.image == image
    ensures forall i :: 0 <= i < |req.safetySettings| ==> req.safetySettings[i].threshold == BlockNone
    ensures forall c: HarmCategory :: Covers(req.safetySettings, c)
  {
    var req := Request(ModelName, image, EditPrompt, ChooseAspectRatio(probe), SafetySettings);
    assert req.safetySettings[0].category == HateSpeech;
    assert req.safetySettings[1].category == SexuallyExplicit;
    assert req.safetySettings[2].category == DangerousContent;
    assert req.safetySettings[3].category == Harassment;
    req
  }

  /** `part.inlineData && part.inlineData.data`: inline data whose payload is non-empty. */
  predicate HasImage(p: Part)
  {
    p.inlineData.Some? && Truthy(p.inlineData.value.data)
  }

  /** The text a part contributes to `textResponse`; an absent text contributes nothing. */
  function PartText(p: Part): string
  {
    if p.text.Some? then p.text.value else ""
  }

  /** Concatenation of the texts of all parts, in order. */
  function AllText(parts: seq<Part>): string
  {
    if |parts| == 0 then "" else PartText(parts[0]) + AllText(parts[1..])
  }

  /** Part `i` is the first part carrying image data. */
  ghost predicate FirstImageAt(parts: seq<Part>, i: int)
  {
    0 <= i < |parts| && HasImage(parts[i]) && forall j :: 0 <= j < i ==> !HasImage(parts[j])
  }

  /** What the loop over the parts yields: an image payload, or the text gathered on the way. */
  datatype PartsScan = FoundImage(data: string) | NoImage(text: string)

  /** The `for (const part of parts)` loop: return the first image payload, otherwise the collected text. */
  function ScanParts(parts: seq<Part>): (r: PartsScan)
    ensures r.FoundImage? <==> exists i :: 0 <= i < |parts| && HasImage(parts[i])
    ensures r.FoundImage? ==> exists i :: FirstImageAt(parts, i) && r.data == parts[i].inlineData.value.data
    ensures r.FoundImage? ==> Truthy(r.data)
    ensures r.NoImage? ==> r.text == AllText(parts)
  {
    if |parts| == 0 then NoImage("")
    else if HasImage(parts[0]) then
      assert FirstImageAt(parts, 0);
      FoundImage(parts[0].inlineData.value.data)
    else
      match ScanParts(parts[1..])
      case FoundImage(d) =>
        assert forall i :: 0 <= i < |parts[1..]| ==> parts[1..][i] == parts[i + 1];
        assert forall i :: FirstImageAt(parts[1..], i) ==> FirstImageAt(parts, i + 1);
        FoundImage(d)
      case NoImage(t) =>
        assert forall i :: 0 < i < |parts| ==> parts[i] == parts[1..][i - 1];
        NoImage(PartText(parts[0]) + t)
  }

  /** The excerpt of a refusal: the text itself up to 100 characters, otherwise its first 100 plus "...". */
  function Excerpt(clean: string): (e: string)
    ensures |clean| <= ExcerptLimit ==> e == clean
    ensures |clean| > ExcerptLimit ==> |e| == ExcerptLimit + 3 && e[..ExcerptLimit] == clean[..ExcerptLimit] && e[ExcerptLimit..] == "..."
  {
    if |clean| > ExcerptLimit then clean[..ExcerptLimit] + "..." else clean
  }

  /** The refusal message built from the gathered text. */
  function RefusalMessage(text: string): (m: string)
    ensures RefusalPrefix <= m && |m| <= |RefusalPrefix| + ExcerptLimit + 3
    ensures m[|RefusalPrefix|..] == Excerpt(Trim(text))
  {
    RefusalPrefix + Excerpt(Trim(text))
  }

  /** `response.candidates[0].content.parts`, each step of the guard allowed to be missing. */
  function PartsOf(resp: Response): (r: Result<Option<seq<Part>>, string>)
    ensures r.Err? <==> resp.candidates == Some([])
    ensures r.Err? ==> r.error == EmptyCandidatesMessage
    ensures forall parts :: r == Ok(Some(parts)) <==>
              (&& resp.candidates.Some? && |resp.candidates.value| > 0
               && resp.candidates.value[0].content == Some(Content(Some(parts))))
  {
    match resp.candidates
    case None => Ok(None)
    case Some(cs) =>
      if |cs| == 0 then Err(EmptyCandidatesMessage)
      else if cs[0].content.None? then Ok(None)
      else Ok(cs[0].content.value.parts)
  }

  /** The reply handling of `removeWatermark`: the image payload, or the refusal / no-data error. */
  function Interpret(resp: Response): (r: Result<string, string>)
    ensures r.Ok? <==> PartsOf(resp).Ok? && PartsOf(resp).value.Some?
                       && exists i :: 0 <= i < |PartsOf(resp).value.value| && HasImage(PartsOf(resp).value.value[i])
    ensures r.Ok? ==> exists i :: FirstImageAt(PartsOf(resp).value.value, i)
                                 && r.value == PartsOf(resp).value.value[i].inlineData.value.data
    ensures r.Err? ==> r.error == EmptyCandidatesMessage || r.error == NoImageMessage || RefusalPrefix <= r.error
  {
    match PartsOf(resp)
    case Err(m) => Err(m)
    case Ok(None) => Err(NoImageMessage)
    case Ok(Some(parts)) =>
      match ScanParts(parts)
      case FoundImage(d) => Ok(d)
      case NoImage(t) => if Truthy(t) then Err(RefusalMessage(t)) else Err(NoImageMessage)
  }

  /** The catch block: `new Error(error.message || "Failed to process image.")`. */
  function Rethrow(message: string): (m: string)
    ensures Truthy(m)
    ensures Truthy(message) ==> m == message
    ensures !Truthy(message) ==> m == FallbackMessage
  {
    if Truthy(message) then message else FallbackMessage
  }

  /** `removeWatermark(apiKey, image.data, image.mimeType)` with the probe and the SDK call as oracles. */
  function RemoveWatermark(apiKey: string, image: InlineData, probe: Option<Dimensions>, call: CallOutcome): (a: Attempt)
    ensures a.sent.None? <==> !Truthy(apiKey)
    ensures !Truthy(apiKey) ==> a.result == Err(MissingKeyMessage)
    ensures a.sent.Some? ==> a.sent.value == BuildRequest(image, probe)
    ensures a.result.Err? ==> Truthy(a.result.error)
    ensures a.result.Ok? ==> Truthy(a.result.value)
  {
    if !Truthy(apiKey) then Attempt(None, Err(MissingKeyMessage))
    else
      var result :=
        match call
        case Threw(m) => Err(Rethrow(m))
        case Replied(resp) =>
          match Interpret(resp)
          case Ok(d) => Ok(d)
          case Err(m) => Err(Rethrow(m));
      Attempt(Some(BuildRequest(image, probe)), result)
  }

  /** The aspect ratio sent is the snapped one when the probe succeeds and "1:1" when it fails. */
  lemma SentAspectRatio(apiKey: string, image: InlineData, probe: Option<Dimensions>, call: CallOutcome)
    requires Truthy(apiKey)
    ensures RemoveWatermark(apiKey, image, probe, call).sent.Some?
    ensures probe.None? ==> RemoveWatermark(apiKey, image, probe, call).sent.value.aspectRatio.Label() == "1:1"
    ensures probe.Some? ==> RemoveWatermark(apiKey, image, probe, call).sent.value.aspectRatio
                            == AspectRatio.BestConfig(probe.value.width, probe.value.height)
  {
  }

  /** A reply with an image part resolves with the payload of the first such part, whatever else it holds. */
  lemma ImageReplyResolves(apiKey: string, image: InlineData, probe: Option<Dimensions>, resp: Response, parts: seq<Part>, i: nat)
    requires Truthy(apiKey)
    requires PartsOf(resp) == Ok(Some(parts)) && FirstImageAt(parts, i)
    ensures RemoveWatermark(apiKey, image, probe, Replied(resp)).result == Ok(parts[i].inlineData.value.data)
  {
    var r := ScanParts(parts);
    var j :| FirstImageAt(parts, j) && r.data == parts[j].inlineData.value.data;
    FirstImageUnique(parts, i, j);
  }

  /** Only one part can be the first image part. */
  lemma FirstImageUnique(parts: seq<Part>, i: int, j: int)
    requires FirstImageAt(parts, i) && FirstImageAt(parts, j)
    ensures i == j
  {
  }

  /**
   * A reply without image parts fails: with the refusal message when the
   * parts carry text, and with the no-data message otherwise.
   */
  lemma TextReplyFails(apiKey: string, image: InlineData, probe: Option<Dimensions>, resp: Response, parts: seq<Part>)
    requires Truthy(apiKey)
    requires PartsOf(resp) == Ok(Some(parts))
    requires forall i :: 0 <= i < |parts| ==> !HasImage(parts[i])
    ensures var r := RemoveWatermark(apiKey, image, probe, Replied(resp)).result;
            r == Err(if Truthy(AllText(parts)) then RefusalMessage(AllText(parts)) else NoImageMessage)
  {
    var text := AllText(parts);
    assert ScanParts(parts) == NoImage(text);
    var message := if Truthy(text) then RefusalMessage(text) else NoImageMessage;
    assert Interpret(resp) == Err(message);
    assert |RefusalPrefix| > 0 && |NoImageMessage| > 0;
    assert Rethrow(message) == message;
  }

  /** The refusal excerpt is the whole trimmed text when it is short, and a 100-character prefix of it otherwise. */
  lemma RefusalExcerpt(text: string)
    ensures var m := RefusalMessage(text); var clean := Trim(text);
            && (|clean| <= ExcerptLimit ==> m == RefusalPrefix + clean)
            && (|clean| > ExcerptLimit ==> |m| == |RefusalPrefix| + ExcerptLimit + 3
                                           && m[|RefusalPrefix|..|RefusalPrefix| + ExcerptLimit] <= clean
                                           && m[|RefusalPrefix| + ExcerptLimit..] == "...")
  {
    var m := RefusalMessage(text);
    var clean := Trim(text);
    if |clean| > ExcerptLimit {
      assert m[|RefusalPrefix|..|RefusalPrefix| + ExcerptLimit] == Excerpt(clean)[..ExcerptLimit];
    }
  }

  /** A reply whose candidates are missing, empty of content or without parts fails with the no-data message. */
  lemma MissingPartsFail(apiKey: string, image: InlineData, probe: Option<Dimensions>, resp: Response)
    requires Truthy(apiKey)
    requires PartsOf(resp) == Ok(None)
    ensures RemoveWatermark(apiKey, image, probe, Replied(resp)).result == Err(NoImageMessage)
  {
  }

  /** An empty candidates array makes the property access throw inside the request block; that error is re-thrown. */
  lemma EmptyCandidatesFail(apiKey: string, image: InlineData, probe: Option<Dimensions>)
    requires Truthy(apiKey)
    ensures RemoveWatermark(apiKey, image, probe, Replied(Response(Some([])))).result == Err(EmptyCandidatesMessage)
  {
  }

  /** A rejected SDK call is re-thrown with its own message, or the fallback message when that is empty. */
  lemma TransportErrorRethrown(apiKey: string, image: InlineData, probe: Option<Dimensions>, message: string)
    requires Truthy(apiKey)
    ensures Truthy(message) ==> RemoveWatermark(apiKey, image, probe, Threw(message)).result == Err(message)
    ensures !Truthy(message) ==> RemoveWatermark(apiKey, image, probe, Threw(message)).result == Err(FallbackMessage)
  {
  }
}

=== FILE: ResultDisplay.dfy ===
/**
 * The decisions components/ResultDisplay.tsx takes for the selected item: the
 * download guard and file name, which toolbar buttons show and what they say,
 * and what the result pane displays.
 */
module ResultDisplay {
  import opened Wrappers
  import opened Strings
  import opened Types
  import opened App
  import Batch
  import opened ErrorClassifier

  const DownloadPrefix := "watermark-removed-"

  /** A `data:` URL for a base64 payload. */
  function DataUrlHref(mimeType: string, payload: string): string
  {
    "data:" + mimeType + ";base64," + payload
  }

  /** The anchor `handleDownload` clicks: its `href` and its `download` file name. */
  datatype DownloadLink = DownloadLink(href: string, filename: string)

  /** `handleDownload`: nothing unless the item has a non-empty processed payload. */
  function Download(item: Option<ImageItem>): (r: Option<DownloadLink>)
    ensures r.Some? <==> item.Some? && item.value.processed.Some? && Truthy(item.value.processed.value)
    ensures r.Some? ==> r.value.href == DataUrlHref(item.value.mimeType, item.value.processed.value)
  {
    match item
    case None => None
    case Some(img) =>
      if img.processed.None? || !Truthy(img.processed.value) then None
      else Some(DownloadLink(DataUrlHref(img.mimeType, img.processed.value), DownloadPrefix + img.name))
  }

  /** The file name is the fixed prefix followed by the item's own name, which can be read back from it. */
  lemma DownloadName(item: ImageItem)
    requires item.processed.Some? && Truthy(item.processed.value)
    ensures var f := Download(Some(item)).value.filename;
            DownloadPrefix <= f && f[|DownloadPrefix|..] == item.name
  {
  }

  /** The Process/Retry button: its label and whether it is disabled. */
  datatype ProcessButton = ProcessButton(caption: string, disabled: bool)

  /** The header buttons: the Process/Retry button if shown, and whether Download is shown. */
  datatype Toolbar = Toolbar(process: Option<ProcessButton>, download: bool)

  /**
   * The header of the result pane: which buttons it shows for `item`. Process/Retry
   * shows exactly when the item is neither SUCCESS nor PROCESSING and is
   * disabled exactly when processing is not allowed; it reads "Retry" exactly
   * for ERROR items; Download shows exactly for SUCCESS items; the two never
   * show together.
   */
  function ToolbarFor(item: ImageItem, canProcess: bool): (t: Toolbar)
    ensures t.process.Some? <==> item.status != Success && item.status != Processing
    ensures t.process.Some? ==> (t.process.value.disabled <==> !canProcess)
    ensures t.process.Some? ==> (t.process.value.caption == "Retry" <==> item.status == Error)
    ensures t.process.Some? ==> t.process.value.caption in {"Retry", "Process"}
    ensures t.download <==> item.status == Success
    ensures !(t.process.Some? && t.download)
  {
    var isSuccess := item.status == Success;
    var isProcessing := item.status == Processing;
    var process :=
      if !isSuccess && !isProcessing then
        Some(ProcessButton(if item.status == Error then "Retry" else "Process", !canProcess))
      else None;
    Toolbar(process, isSuccess)
  }

  /** `item.error || 'Unknown error'`. */
  function ErrorText(item: ImageItem): (t: string)
    ensures Truthy(t)
    ensures item.error.Some? && Truthy(item.error.value) ==> t == item.error.value
    ensures !(item.error.Some? && Truthy(item.error.value)) ==> t == "Unknown error"
  {
    if item.error.Some? && Truthy(item.error.value) then item.error.value else "Unknown error"
  }

  /** What the result pane shows. */
  datatype Preview = Working | Failed(message: string) | Restored(src: string) | Placeholder(keyHint: bool)

  /** The body of the result pane: spinner, failure text, the processed image, or the prompt to start (with a key hint). */
  function PreviewFor(item: ImageItem, hasApiKey: bool): (p: Preview)
    ensures p.Working? <==> item.status == Processing
    ensures p.Failed? <==> item.status == Error
    ensures p.Restored? <==> item.status == Success
    ensures p.Placeholder? <==> item.status == Pending
    ensures p.Failed? ==> p.message == ErrorText(item)
    ensures p.Restored? ==> p.src == DataUrlHref(item.mimeType, if item.processed.Some? then item.processed.value else "null")
    ensures p.Placeholder? ==> p.keyHint == !hasApiKey
  {
    match item.status
    case Processing => Working
    case Error => Failed(ErrorText(item))
    case Success =>
      Restored(DataUrlHref(item.mimeType, if item.processed.Some? then item.processed.value else "null"))
    case Pending => Placeholder(!hasApiKey)
  }

  /** The whole component: an empty-state prompt when nothing is selected. */
  datatype View = NothingSelected | ItemView(toolbar: Toolbar, preview: Preview)

  function ViewFor(item: Option<ImageItem>, canProcess: bool, hasApiKey: bool): View
  {
    match item
    case None => NothingSelected
    case Some(img) => ItemView(ToolbarFor(img, canProcess), PreviewFor(img, hasApiKey))
  }

  /** The view App renders for a state: the selected item with `canProcess` and `!!apiKey`. */
  function AppView(s: AppState): View
  {
    ViewFor(SelectedImage(s), CanProcess(s), Truthy(s.apiKey))
  }

  /**
   * The pane shows its empty prompt exactly when no queued item carries the
   * selected id; otherwise its toolbar reflects that item and `canProcess`.
   */
  lemma AppViewShowsSelection(s: AppState)
    ensures AppView(s).NothingSelected? <==> s.selectedId.None? || !HasId(s.images, s.selectedId.value)
    ensures AppView(s).ItemView? ==>
              exists i :: 0 <= i < |s.images| && s.images[i].id == s.selectedId.value
                          && AppView(s).toolbar == ToolbarFor(s.images[i], CanProcess(s))
  {
    if AppView(s).ItemView? {
      var item := SelectedImage(s).value;
      var i :| 0 <= i < |s.images| && s.images[i] == item;
    }
  }

  /** While a batch run processes an item, that item is on screen and no enabled Process/Retry button is. */
  lemma BatchShowsCurrentItem(s: AppState, replies: nat -> Oracle, j: nat)
    requires DistinctIds(s.images) && Truthy(s.apiKey)
    requires j < |Batch.Eligible(s.images)|
    ensures var v := Batch.HandleProcessAll(s, replies).visits[j];
            && SelectedImage(v) == Some(Batch.Eligible(s.images)[j])
            && AppView(v).ItemView?
            && (AppView(v).toolbar.process.Some? ==> AppView(v).toolbar.process.value.disabled)
  {
    Batch.BatchOutcome(s, replies);
    var v := Batch.HandleProcessAll(s, replies).visits[j];
    assert Find(v.images, Batch.Eligible(s.images)[j].id) == Some(Batch.Eligible(s.images)[j]);
  }

  /** How a settled item looks: Download of its new payload after success, Retry and the classified message after failure. */
  lemma SettledItemOnScreen(img: ImageItem, result: Result<string, string>, canProcess: bool, hasApiKey: bool)
    requires result.Ok? ==> Truthy(result.value)
    ensures var item := Attempted(img, result);
            && (result.Ok? ==> ToolbarFor(item, canProcess).download
                               && Download(Some(item)).Some?
                               && Download(Some(item)).value.href == DataUrlHref(img.mimeType, result.value))
            && (result.Err? ==> ToolbarFor(item, canProcess).process == Some(ProcessButton("Retry", !canProcess))
                                && PreviewFor(item, hasApiKey) == Failed(ClassifyError(result.error)))
  {
    var item := Attempted(img, result);
    if result.Err? {
      ClassifyErrorRange(result.error);
      assert item.status == Error && item.error == Some(ClassifyError(result.error));
      assert ErrorText(item) == ClassifyError(result.error);
      assert ToolbarFor(item, canProcess) == Toolbar(Some(ProcessButton("Retry", !canProcess)), false);
    } else {
      assert item.status == Success && item.processed == Some(result.value);
      assert Download(Some(item)) == Some(DownloadLink(DataUrlHref(img.mimeType, result.value), DownloadPrefix + img.name));
    }
  }

  /**
   * After a successful attempt the item offers Download of exactly the new
   * payload; after a failed one it offers Retry and shows the classified message.
   */
  lemma AttemptOutcomeOnScreen(s: AppState, i: nat, o: Oracle, canProcess: bool, hasApiKey: bool)
    requires DistinctIds(s.images) && i < |s.images| && Truthy(s.apiKey)
    ensures var item := ProcessImage(s, s.images[i].id, o).images[i];
            var result := Outcome(s.apiKey, s.images[i], o);
            && (result.Ok? ==> ToolbarFor(item, canProcess).download
                               && Download(Some(item)).Some?
                               && Download(Some(item)).value.href == DataUrlHref(s.images[i].mimeType, result.value))
            && (result.Err? ==> ToolbarFor(item, canProcess).process == Some(ProcessButton("Retry", !canProcess))
                                && PreviewFor(item, hasApiKey) == Failed(ClassifyError(result.error)))
  {
    FindDistinct(s.images, i);
    var result := Outcome(s.apiKey, s.images[i], o);
    assert ProcessImage(s, s.images[i].id, o).images[i] == Attempted(s.images[i], result);
    SettledItemOnScreen(s.images[i], result, canProcess, hasApiKey);
  }
}

=== FILE: Sidebar.dfy ===
/** The values components/Sidebar.tsx derives from the queue: the pending count, the batch button rule, status label and icon. */
module Sidebar {
  import opened Wrappers
  import opened Strings
  import opened Types
  import App
  import Batch

  /** `pendingCount`: how many items are PENDING or ERROR. */
  function PendingCount(images: seq<ImageItem>): (n: nat)
    ensures n == |Batch.Eligible(images)|
    ensures n <= |images|
  {
    if |images| == 0 then 0
    else (if IsEligible(images[0]) then 1 else 0) + PendingCount(images[1..])
  }

  /**
   * `disabled={isBatchProcessing || pendingCount === 0}` on the Process-all
   * button: disabled exactly while a batch runs or when no item is PENDING or ERROR.
   */
  function ProcessAllDisabled(isBatchProcessing: bool, images: seq<ImageItem>): (disabled: bool)
    ensures disabled <==> isBatchProcessing || forall i :: 0 <= i < |images| ==> !IsEligible(images[i])
  {
    var none := PendingCount(images) == 0;
    assert none ==> forall i :: 0 <= i < |images| ==> !IsEligible(images[i]) by {
      if none {
        forall i | 0 <= i < |images| ensures !IsEligible(images[i]) {
          assert images[i] in images;
        }
      }
    }
    assert !none ==> Batch.Eligible(images)[0] in images;
    isBatchProcessing || none
  }

  /** Pressing an enabled button with a credential present starts a run that processes at least one item. */
  lemma EnabledButtonProcessesSomething(s: AppState, replies: nat -> App.Oracle)
    requires !ProcessAllDisabled(s.isBatchProcessing, s.images) && Truthy(s.apiKey)
    ensures |Batch.HandleProcessAll(s, replies).visits| == PendingCount(s.images) > 0
  {
  }

  /** The status text shown under an item's name. */
  function StatusLabel(status: Status): (text: string)
    ensures text == "Ready" <==> status == Pending
    ensures status != Pending ==> text == status.Name()
  {
    match status
    case Pending => "Ready"
    case Processing => "PROCESSING"
    case Success => "SUCCESS"
    case Error => "ERROR"
  }

  /** A PENDING item reads "Ready", every other status is shown by name, and no two statuses share a label. */
  lemma StatusLabelDistinct(a: Status, b: Status)
    ensures StatusLabel(a) == StatusLabel(b) <==> a == b
    ensures StatusLabel(Pending) == "Ready"
  {
  }

  datatype Icon = CheckCircle | AlertCircle | Spinner

  /** `getStatusIcon`. */
  function StatusIcon(status: Status): (icon: Option<Icon>)
    ensures icon.None? <==> status == Pending
  {
    match status
    case Success => Some(CheckCircle)
    case Error => Some(AlertCircle)
    case Processing => Some(Spinner)
    case Pending => None
  }

  /** Only PENDING items have no icon, and the three other statuses have different icons. */
  lemma StatusIconDistinct(a: Status, b: Status)
    ensures StatusIcon(a).None? <==> a == Pending
    ensures StatusIcon(a).Some? && StatusIcon(a) == StatusIcon(b) ==> a == b
  {
  }
}

=== FILE: Strings.dfy ===
/**
 * The few pieces of ECMAScript string behaviour the application relies on:
 * truthiness of strings, `String.prototype.includes`, `startsWith` and `trim`.
 * Strings are sequences of Unicode scalar values.
 */
module Strings {

  /** A string is truthy in JavaScript exactly when it is not empty. */
  predicate Truthy(s: string)
  {
    s != ""
  }

  /** `sub` occurs in `s` starting at position `i`. */
  ghost predicate OccursAt(s: string, sub: string, i: int)
  {
    0 <= i && i + |sub| <= |s| && s[i..i + |sub|] == sub
  }

  /** `s.startsWith(prefix)`. */
  predicate StartsWith(s: string, prefix: string)
  {
    prefix <= s
  }

  /** `s.includes(sub)`: scans the start positions of `s` from left to right. */
  predicate Contains(s: string, sub: string)
    decreases |s|
  {
    StartsWith(s, sub) || (|s| > 0 && Contains(s[1..], sub))
  }

  /** `includes` holds exactly when `sub` occurs somewhere in `s`. */
  lemma {:induction false} ContainsIff(s: string, sub: string)
    ensures Contains(s, sub) <==> exists i :: OccursAt(s, sub, i)
    decreases |s|
  {
    if StartsWith(s, sub) {
      assert OccursAt(s, sub, 0);
    } else if |s| > 0 {
      var t := s[1..];
      ContainsIff(t, sub);
      if Contains(t, sub) {
        var i :| OccursAt(t, sub, i);
        assert t[i..i + |sub|] == s[i + 1..i + 1 + |sub|];
        assert OccursAt(s, sub, i + 1);
      } else {
        forall i | 0 < i && OccursAt(s, sub, i) ensures OccursAt(t, sub, i - 1) {
          assert t[i - 1..i - 1 + |sub|] == s[i..i + |sub|];
        }
      }
    }
  }

  /** A witness occurrence is enough for `includes` to hold. */
  lemma ContainsAt(s: string, sub: string, i: int)
    requires OccursAt(s, sub, i)
    ensures Contains(s, sub)
  {
    ContainsIff(s, sub);
  }

  /**
   * The characters `trim` removes: ECMAScript WhiteSpace (TAB, VT, FF, SP,
   * NBSP, ZWNBSP and the Unicode space separators) and LineTerminator.
   */
  predicate IsWhitespace(c: char)
  {
    || c == '\t' || c == '\U{000B}' || c == '\U{000C}' || c == ' '
    || c == '\U{00A0}' || c == '\U{FEFF}' || c == '\U{1680}'
    || ('\U{2000}' <= c <= '\U{200A}')
    || c == '\U{202F}' || c == '\U{205F}' || c == '\U{3000}'
    || c == '\n' || c == '\r' || c == '\U{2028}' || c == '\U{2029}'
  }

  /** Removes leading whitespace: the result is the suffix of `s` after its leading whitespace run. */
  function TrimStart(s: string): (r: string)
    ensures |r| <= |s| && r == s[|s| - |r|..]
    ensures forall k :: 0 <= k < |s| - |r| ==> IsWhitespace(s[k])
    ensures |r| > 0 ==> !IsWhitespace(r[0])
  {
    if |s| > 0 && IsWhitespace(s[0]) then TrimStart(s[1..]) else s
  }

  /** Removes trailing whitespace: the result is the prefix of `s` before its trailing whitespace run. */
  function TrimEnd(s: string): (r: string)
    ensures |r| <= |s| && r == s[..|r|]
    ensures forall k :: |r| <= k < |s| ==> IsWhitespace(s[k])
    ensures |r| > 0 ==> !IsWhitespace(r[|r| - 1])
  {
    if |s| > 0 && IsWhitespace(s[|s| - 1]) then TrimEnd(s[..|s| - 1]) else s
  }

  /** `r` sits at position `i` of `s` with nothing but whitespace around it. */
  ghost predicate TrimmedAt(s: string, r: string, i: int)
  {
    && 0 <= i <= i + |r| <= |s|
    && r == s[i..i + |r|]
    && (forall k :: 0 <= k < i ==> IsWhitespace(s[k]))
    && (forall k :: i + |r| <= k < |s| ==> IsWhitespace(s[k]))
  }

  /**
   * `s.trim()`: a contiguous middle piece of `s`, with only whitespace before
   * and after it, that neither starts nor ends with whitespace.
   */
  function Trim(s: string): (r: string)
    ensures exists i :: TrimmedAt(s, r, i)
    ensures |r| > 0 ==> !IsWhitespace(r[0]) && !IsWhitespace(r[|r| - 1])
  {
    var a := TrimStart(s);
    var r := TrimEnd(a);
    TrimmedSlice(s, a, r);
    assert |r| > 0 ==> r[0] == a[0];
    r
  }

  /** A whitespace-bounded suffix `a` of `s`, cut down to a prefix `r` with whitespace after it, is a whitespace-bounded slice of `s`. */
  lemma TrimmedSlice(s: string, a: string, r: string)
    requires |a| <= |s| && a == s[|s| - |a|..] && forall k :: 0 <= k < |s| - |a| ==> IsWhitespace(s[k])
    requires |r| <= |a| && r == a[..|r|] && forall k :: |r| <= k < |a| ==> IsWhitespace(a[k])
    ensures TrimmedAt(s, r, |s| - |a|)
  {
    var i := |s| - |a|;
    assert r == s[i..i + |r|];
    forall k | i + |r| <= k < |s| ensures IsWhitespace(s[k]) {
      assert s[k] == a[k - i];
    }
  }

  /** Trimming a trimmed string changes nothing. */
  lemma TrimIdempotent(s: string)
    ensures Trim(Trim(s)) == Trim(s)
  {
    var t := Trim(s);
    assert TrimStart(t) == t;
    assert TrimEnd(t) == t;
  }
}

=== FILE: Types.dfy ===
/** The records of types.ts: an uploaded image with its processing record, and the application state. */
module Types {
  import opened Wrappers

  /** `ProcessingStatus`. */
  datatype Status = Pending | Processing | Success | Error
  {
    /** The string literal the status is at run time. */
    function Name(): string
    {
      match this
      case Pending => "PENDING"
      case Processing => "PROCESSING"
      case Success => "SUCCESS"
      case Error => "ERROR"
    }
  }

  /** `ImageItem`: base64 payloads, the status of the latest attempt and its error message. */
  datatype ImageItem = ImageItem(
    id: string,
    original: string,
    processed: Option<string>,
    mimeType: string,
    status: Status,
    error: Option<string>,
    name: string)

  /** `AppState`: the credential, the queue in upload order, the selection and the batch flag. */
  datatype AppState = AppState(
    apiKey: string,
    images: seq<ImageItem>,
    selectedId: Option<string>,
    isBatchProcessing: bool)

  /** `Partial<ImageItem>`: a field is overwritten exactly when the patch names it. */
  datatype Patch = Patch(
    id: Option<string>,
    original: Option<string>,
    processed: Option<Option<string>>,
    mimeType: Option<string>,
    status: Option<Status>,
    error: Option<Option<string>>,
    name: Option<string>)

  function Pick<T>(update: Option<T>, current: T): T
  {
    if update.Some? then update.value else current
  }

  /** `{ ...img, ...updates }`. */
  function Merge(img: ImageItem, u: Patch): ImageItem
  {
    ImageItem(
      Pick(u.id, img.id),
      Pick(u.original, img.original),
      Pick(u.processed, img.processed),
      Pick(u.mimeType, img.mimeType),
      Pick(u.status, img.status),
      Pick(u.error, img.error),
      Pick(u.name, img.name))
  }

  /** A patch that names no field. */
  const NoChange := Patch(None, None, None, None, None, None, None)

  /** Applying `u` then `v` as one patch: a field takes `v`'s value when `v` names it, otherwise `u`'s. */
  function Then(u: Patch, v: Patch): Patch
  {
    Patch(
      if v.id.Some? then v.id else u.id,
      if v.original.Some? then v.original else u.original,
      if v.processed.Some? then v.processed else u.processed,
      if v.mimeType.Some? then v.mimeType else u.mimeType,
      if v.status.Some? then v.status else u.status,
      if v.error.Some? then v.error else u.error,
      if v.name.Some? then v.name else u.name)
  }

  /**
   * Spreading a patch over an item: an empty patch changes nothing, spreading
   * the same patch twice is spreading it once, and two patches in a row act as
   * one in which the later patch wins every field both name.
   */
  lemma MergeLaws(img: ImageItem, u: Patch, v: Patch)
    ensures Merge(img, NoChange) == img
    ensures Merge(Merge(img, u), u) == Merge(img, u)
    ensures Merge(Merge(img, u), v) == Merge(img, Then(u, v))
  {
  }

  /** An item a batch run picks up: PENDING or ERROR. */
  predicate IsEligible(img: ImageItem)
  {
    img.status == Pending || img.status == Error
  }

  /** No two items share an id (ids are generated fresh at intake). */
  ghost predicate DistinctIds(images: seq<ImageItem>)
  {
    forall i, j :: 0 <= i < j < |images| ==> images[i].id != images[j].id
  }

  /** Some item carries `id`. */
  ghost predicate HasId(images: seq<ImageItem>, id: string)
  {
    exists i :: 0 <= i < |images| && images[i].id == id
  }
}

=== FILE: Wrappers.dfy ===
/** Failure-carrying datatypes shared by every module of the model. */
module Wrappers {

  /** A value that may be absent; stands for TypeScript's `T | null` and `T | undefined`. */
  datatype Option<+T> = None | Some(value: T)

  /** The outcome of an operation that either produces a value or throws an `Error` with a message. */
  datatype Result<+T, +E> = Ok(value: T) | Err(error: E)
}
